=== FILE: README.md ===
# CloudSyncDocument core, modelled in Dafny

This project models the document core of the CloudSyncDocument sample, an iOS
app that stores image collections as iCloud document packages (`.csdoc`).
A package is a directory that holds a `Description.plist` file and one file
per image. The model covers:

- the document's `Changes` buffers: the unsaved user changes and the
  unpresented peer changes;
- `gatherPeerChanges`, the diff run by `load` between the package listing
  the document knew and the listing just loaded;
- how a save carries the unsaved changes out to the package;
- how image items are retrieved;
- conflict resolution, where the latest version wins;
- the detail view's reaction to document-state changes and its cell deletion;
- where new documents are placed in the iCloud container, and the
  Documents-scope test.

Everything is pure and functional. A package listing is a
`map<string, Option<int>>`: each entry name maps to its modification date,
if it has one. A URL is a sequence of path components.

Some inputs cannot be computed from the model, so they are parameters:

- the iteration order of each Swift dictionary. It is passed as an explicit
  sequence that must enumerate the keys;
- the outcome of each file-system step. That covers removal, copy, re-read,
  version replacement and version removal;
- which files can be read, and whether their bytes decode as an image;
- the current time used by `save`.

Modules, one file each:

| module | file | Swift source |
|---|---|---|
| `Wrappers` | `wrappers.dfy` | `Option` and `Result` |
| `Seqs` | `seqs.dfy` | Swift array operations: `remove(at:)`, `firstIndex`, removal of items |
| `Urls` | `urls.dfy` | the `URL` operations the app uses |
| `PeerChanges` | `peer_changes.dfy` | `Document.Changes` and `gatherPeerChanges(with:)` |
| `DocumentModel` | `document.dfy` | the `Document` class: `load`, `contents`, `save`, `fulfillUnsavedChanges`, `imageItems`, `retrieveImage…`, the accessors |
| `Conflicts` | `conflicts.dfy` | `handleConflicts(_:)` and `pickLatestVersion(for:)` |
| `CollectionView` | `collection_view.dfy` | `deleteCell(_:)` and `retrieveAndPresentImage(with:)` |
| `DocumentStateView` | `document_state.dfy` | `documentStateChanged(_:)`, `updateCollectionView(with:)` and `printDocumentState(for:)` |
| `DocumentLocation` | `document_location.dfy` | `Scope`, `url(for:scope:)` and `isDocumentScopeURL(_:)` |

`gatherPeerChanges` is described by `Classifies`, a set-level reference
definition:

- new entries are the keys only in the loaded listing;
- deleted entries are the keys only in the known listing;
- updated entries are the common keys whose date moved strictly forward;
- no list repeats an entry.

The function is proved to meet this definition in all three of its branches,
and that is what makes the diff independent of dictionary order.

## Model

| member | source | states |
|---|---|---|
| Seqs.RemoveAt | CloudSyncDocument/CloudSyncDocument/Detail/Document.swift:327-331 | `remove(at:)` shortens the array by one, keeps the elements before the index and shifts the ones after it down by one |
| Seqs.RemoveAtInverse | CloudSyncDocument/CloudSyncDocument/Detail/Document.swift:327-331 | putting the removed element back at its index restores the array |
| Seqs.FirstIndex | CloudSyncDocument/CloudSyncDocument/Detail/Document.swift:213 | `firstIndex(where: == x)` returns the first position holding x, and returns nil exactly when x is absent |
| Seqs.RemoveFirst | CloudSyncDocument/CloudSyncDocument/Detail/Document.swift:213-215 | an absent element leaves the array as it is; otherwise it gets one shorter, and a duplicate-free array stays duplicate-free and loses exactly that element |
| Seqs.RemoveAll | CloudSyncDocument/CloudSyncDocument/Detail/DetailViewController+DocumentState.swift:69-74 | deleting items from a snapshot keeps exactly the items not listed for deletion |
| Seqs.RemoveAllAppend | CloudSyncDocument/CloudSyncDocument/Detail/DetailViewController+DocumentState.swift:69-74 | deletion works item by item: on a concatenation it gives the concatenation of the results, so the remaining items keep their order |
| Seqs.RemoveAllSingle | CloudSyncDocument/CloudSyncDocument/Detail/DetailViewController+DocumentState.swift:69-74 | a single item remains exactly when it is not listed for deletion |
| Seqs.RemoveAllNothing | CloudSyncDocument/CloudSyncDocument/Detail/DetailViewController+DocumentState.swift:69 | deleting no items leaves the list as it is, so skipping the deletion when the list is empty makes no difference |
| Urls.AppendingPathComponent | CloudSyncDocument/CloudSyncDocument/Main/MainViewController+Document.swift:28 | the new URL's last component is the argument; deleting it gives back the base; the path grows by "/" and the component |
| Urls.AppendingPathExtension | CloudSyncDocument/CloudSyncDocument/Main/MainViewController+Document.swift:41 | the last component gains "." and the extension; the parent is unchanged; the path grows by "." and the extension |
| Urls.NameUrl | CloudSyncDocument/CloudSyncDocument/Detail/Document.swift:205 | a URL made from an entry name (one without URL syntax) has that name as its last path component |
| Urls.NameUrlInjective | CloudSyncDocument/CloudSyncDocument/Detail/Document.swift:187 | two names give the same URL exactly when they are equal |
| PeerChanges.Clear | CloudSyncDocument/CloudSyncDocument/Detail/Document.swift:27-31 | after `clear()` all three lists are empty, so `isEmpty` holds |
| PeerChanges.IsEmpty | CloudSyncDocument/CloudSyncDocument/Detail/Document.swift:24-26 | `isEmpty` holds exactly when all three lists are empty |
| PeerChanges.IsNewer | CloudSyncDocument/CloudSyncDocument/Detail/Document.swift:209-210 | an entry counts as updated only when both dates exist and differ |
| PeerChanges.NewerIsStrictOrder | CloudSyncDocument/CloudSyncDocument/Detail/Document.swift:209-210 | "newer" never holds both ways and is transitive |
| PeerChanges.EmptyIffClearIsIdentity | CloudSyncDocument/CloudSyncDocument/Detail/Document.swift:24-31 | `isEmpty` holds exactly when `clear()` leaves the value as it is |
| PeerChanges.ScanWrappers | CloudSyncDocument/CloudSyncDocument/Detail/Document.swift:203-216 | the general loop yields as new exactly the unknown names, as updated exactly the known names with a later date, and as deleted exactly the old keys not scanned; no list repeats |
| PeerChanges.ScanUnknownStep | CloudSyncDocument/CloudSyncDocument/Detail/Document.swift:204-206 | scanning one more name that was not known adds exactly that name to the new entries and keeps the loop's set rules |
| PeerChanges.ScanKnownStep | CloudSyncDocument/CloudSyncDocument/Detail/Document.swift:208-215 | scanning one more known name strikes it from the deletion candidates and adds it to the updated names exactly when its date moved forward |
| PeerChanges.AllNew | CloudSyncDocument/CloudSyncDocument/Detail/Document.swift:186-188 | with no known listing, the new URLs stand for exactly the loaded names, without repeats, and nothing is deleted or updated |
| PeerChanges.GatherPeerChanges | CloudSyncDocument/CloudSyncDocument/Detail/Document.swift:181-218 | in all three branches the result classifies the loaded listing against the known one (or against an empty one when none is known) as `Classifies` defines |
| PeerChanges.AllNewWithoutKnownListing | CloudSyncDocument/CloudSyncDocument/Detail/Document.swift:184-189 | with no known listing, or an empty one, the new URLs are the loaded names in order and the other two lists are empty |
| PeerChanges.AllDeletedWhenEmptied | CloudSyncDocument/CloudSyncDocument/Detail/Document.swift:191-196 | a non-empty known listing against an empty loaded one deletes exactly the known keys, in their order |
| PeerChanges.ClassificationIsPartition | CloudSyncDocument/CloudSyncDocument/Detail/Document.swift:198-216 | new, deleted and updated entries are pairwise disjoint; new, updated and unchanged entries together make up the loaded keys |
| PeerChanges.DiffOfSelfIsEmpty | CloudSyncDocument/CloudSyncDocument/Detail/Document.swift:198-216 | diffing a listing against itself finds no change at all |
| PeerChanges.DiffIndependentOfOrder | CloudSyncDocument/CloudSyncDocument/Detail/Document.swift:203-216 | any two dictionary iteration orders give the same sets of new, deleted and updated entries |
| PeerChanges.WorkedExample | CloudSyncDocument/CloudSyncDocument/Detail/Document.swift:181-218 | known {a:1, b:1} against loaded {a:1, c:2}: c is new, b is deleted, and a is unchanged because its date did not move |
| DocumentModel.NewDocumentContents | CloudSyncDocument/CloudSyncDocument/Detail/Document.swift:81-87 | a new document's contents are a directory holding only the description file |
| DocumentModel.Load | CloudSyncDocument/CloudSyncDocument/Detail/Document.swift:53-72 | load fails exactly when the contents are not a directory; otherwise the loaded listing becomes the known one and the peer changes classify it against the previous one; nothing else changes |
| DocumentModel.LoadDiscardsUnconsumedChanges | CloudSyncDocument/CloudSyncDocument/Detail/Document.swift:66-70 | peer changes still pending before a load have no effect on its result |
| DocumentModel.ReloadFindsNoChange | CloudSyncDocument/CloudSyncDocument/Detail/Document.swift:53-72 | loading the same package a second time reports no peer change |
| DocumentModel.FirstLoadOfNewDocument | CloudSyncDocument/CloudSyncDocument/Detail/Document.swift:184-189 | the first load of a new document reports only the description file, as new |
| DocumentModel.AddUnsavedNewImageUrl | CloudSyncDocument/CloudSyncDocument/Detail/Document.swift:333-337 | the URL is appended to the pending new URLs; the other lists and the rest of the document are unchanged |
| DocumentModel.RemoveUnsavedNewImageUrl | CloudSyncDocument/CloudSyncDocument/Detail/Document.swift:327-331 | the URL at the index leaves the pending new URLs and the others keep their order; nothing else changes |
| DocumentModel.AddUnsavedDeletedImageName | CloudSyncDocument/CloudSyncDocument/Detail/Document.swift:315-319 | the name is appended to the pending deletions; nothing else changes |
| DocumentModel.ClearUnsavedUserChanges | CloudSyncDocument/CloudSyncDocument/Detail/Document.swift:339-343 | the unsaved buffer becomes empty; nothing else changes |
| DocumentModel.ClearUnpresentedPeerChanges | CloudSyncDocument/CloudSyncDocument/Detail/Document.swift:347-349 | the unpresented peer changes become empty; nothing else changes |
| DocumentModel.AddThenRemoveNewIsIdentity | CloudSyncDocument/CloudSyncDocument/Detail/Document.swift:327-337 | removing a new URL at the index where it was just appended gives back the document |
| DocumentModel.RemoveDeletedFiles | CloudSyncDocument/CloudSyncDocument/Detail/Document.swift:149-158 | the package loses exactly the names whose removal succeeded; absent files are skipped without failure; success means no attempted removal failed |
| DocumentModel.CopyNewFiles | CloudSyncDocument/CloudSyncDocument/Detail/Document.swift:162-171 | each successful copy adds its last path component to the package; entries no copy touched keep their dates; success means every copy succeeded |
| DocumentModel.CopiedDates | CloudSyncDocument/CloudSyncDocument/Detail/Document.swift:162-171 | a copied name carries the date of the last successful copy to that name |
| DocumentModel.FulfillUnsavedChanges | CloudSyncDocument/CloudSyncDocument/Detail/Document.swift:143-179 | the package afterwards is (before minus removed) plus copied; entries no copy touched keep their dates, and each copied name has the date of its last successful copy; the snapshot is the new listing when the re-read works and nil otherwise; the unsaved buffer is cleared; success means no step failed |
| DocumentModel.Save | CloudSyncDocument/CloudSyncDocument/Detail/Document.swift:89-106 | a non-creating save fulfils the unsaved changes and stamps the modification date with the save time |
| DocumentModel.EmptySaveSucceeds | CloudSyncDocument/CloudSyncDocument/Detail/Document.swift:143-179 | with nothing pending, a save leaves the package as it was and reports success |
| DocumentModel.SavedImageIsNewOnce | CloudSyncDocument/CloudSyncDocument/Detail/Document.swift:162-171 | after one image is copied in successfully, diffing the saved listing against the earlier one reports that image, and only it, as new |
| DocumentModel.ReadableImageNames | CloudSyncDocument/CloudSyncDocument/Detail/Document.swift:268-275 | each readable name other than the description file is kept as often as it was requested; every other name is dropped |
| DocumentModel.ReadableImageNamesMembers | CloudSyncDocument/CloudSyncDocument/Detail/Document.swift:268-275 | a name is kept exactly when it was requested, is not the description file and its data can be read |
| DocumentModel.ReadableImageNamesAppend | CloudSyncDocument/CloudSyncDocument/Detail/Document.swift:268-275 | the loop filters name by name: on a concatenation it gives the concatenation of the results, so kept names keep their order |
| DocumentModel.ReadableImageNamesSingle | CloudSyncDocument/CloudSyncDocument/Detail/Document.swift:268-275 | a single name is kept exactly when it is not the description file and its data can be read |
| DocumentModel.ImageItems | CloudSyncDocument/CloudSyncDocument/Detail/Document.swift:262-277 | nil without a snapshot or when nothing qualifies; otherwise every requested (or, for nil, every listed) readable name other than the description file, and nothing else, in the order of the names it went through |
| DocumentModel.RetrieveImage | CloudSyncDocument/CloudSyncDocument/Detail/Document.swift:230-242 | an image comes back exactly when the file exists and its data decodes, and it is that file's data |
| Conflicts.Later | CloudSyncDocument/CloudSyncDocument/Detail/DetailViewController+Conflict.swift:75-76 | a version beats another only when both are dated and the dates differ |
| Conflicts.LaterIsStrictOrder | CloudSyncDocument/CloudSyncDocument/Detail/DetailViewController+Conflict.swift:75-76 | "later" never holds both ways, is transitive, and two dated versions either compare or share their date |
| Conflicts.WinnerIndex | CloudSyncDocument/CloudSyncDocument/Detail/DetailViewController+Conflict.swift:72-79 | the winning conflict version is the first one with the latest date, and only if that date is strictly later than the current version's |
| Conflicts.Winner | CloudSyncDocument/CloudSyncDocument/Detail/DetailViewController+Conflict.swift:73-79 | the winner is the current version or one of the conflicts; a different winner is strictly later; when the current version is dated, no dated version is later than the winner |
| Conflicts.PickLatestVersion | CloudSyncDocument/CloudSyncDocument/Detail/DetailViewController+Conflict.swift:67-94 | nothing happens and the result is false without both lists; otherwise a different winner replaces the current version, removal of the others is always attempted, and the result is true exactly when a replacement succeeded |
| Conflicts.IncumbentKeptOnTies | CloudSyncDocument/CloudSyncDocument/Detail/DetailViewController+Conflict.swift:74-80 | if no conflict version is strictly later, the current version stays and no revert follows |
| Conflicts.NoConflictsKeepsCurrent | CloudSyncDocument/CloudSyncDocument/Detail/DetailViewController+Conflict.swift:73-79 | with an empty conflict list the current version wins |
| Conflicts.WorkedExamples | CloudSyncDocument/CloudSyncDocument/Detail/DetailViewController+Conflict.swift:67-94 | of versions dated 0, 1 and 2 the one dated 2 wins and the document reverts; a tie does not win |
| Conflicts.HandleConflicts | CloudSyncDocument/CloudSyncDocument/Detail/DetailViewController+Conflict.swift:17-21 | the button is disabled exactly when there is no document or it is not in conflict; otherwise the conflicts are resolved |
| CollectionView.FirstIndexNamed | CloudSyncDocument/CloudSyncDocument/Detail/DetailViewController+CollectionView.swift:70-72 | returns the first pending URL whose last component is the name, and nil exactly when there is none |
| CollectionView.DeleteCell | CloudSyncDocument/CloudSyncDocument/Detail/DetailViewController+CollectionView.swift:61-83 | no item means no change; otherwise an image added in this session is dropped from the pending URLs, any other is recorded as a pending deletion, and the item leaves the view while the other items keep their order |
| CollectionView.DeletionChangesOneList | CloudSyncDocument/CloudSyncDocument/Detail/DetailViewController+CollectionView.swift:73-77 | each deletion changes exactly one of the two pending lists |
| CollectionView.DeleteUndoesAdd | CloudSyncDocument/CloudSyncDocument/Detail/DetailViewController+CollectionView.swift:67-77 | deleting an image added in the same session returns the document to its state before the addition |
| CollectionView.PresentedImage | CloudSyncDocument/CloudSyncDocument/Detail/DetailViewController+CollectionView.swift:26-38 | the document's copy is shown when it decodes, otherwise the cache's copy; whatever is shown decodes |
| DocumentStateView.NewNamesRoundTrip | CloudSyncDocument/CloudSyncDocument/Detail/DetailViewController+DocumentState.swift:85-86 | names turned into URLs by the diff come back unchanged, in order, as the last path components the view asks for |
| DocumentStateView.UpdateCollectionView | CloudSyncDocument/CloudSyncDocument/Detail/DetailViewController+DocumentState.swift:66-96 | the items become the surviving items in their order followed by the readable new images in the order of their URLs; deleted names leave unless re-added as new; readable updated images are reloaded; empty changes alter nothing |
| DocumentStateView.UpdateKeepsOrderExample | CloudSyncDocument/CloudSyncDocument/Detail/DetailViewController+DocumentState.swift:66-96 | items a, b, c with b deleted and d new give a, c, d, with nothing reloaded |
| DocumentStateView.PresentPeerChanges | CloudSyncDocument/CloudSyncDocument/Detail/DetailViewController+DocumentState.swift:22-26 | the pending peer changes are applied to the items and then cleared in the document; nothing else changes |
| DocumentStateView.DocumentStateChanged | CloudSyncDocument/CloudSyncDocument/Detail/DetailViewController+DocumentState.swift:12-64 | gives the button states for normal, inConflict and closed, presents the peer changes in the first two, empties the view when closed, and covers the inConflict and editingDisabled rules for mixed states; the title changes only when closed, Edit changes only through editingDisabled in mixed states, and the document changes only in its peer changes |
| DocumentStateView.PeerChangesPresentedOnce | CloudSyncDocument/CloudSyncDocument/Detail/DetailViewController+DocumentState.swift:19-41 | a second notification in the normal or inConflict state leaves view and document as the first left them |
| DocumentStateView.FlagNamed | CloudSyncDocument/CloudSyncDocument/Detail/DetailViewController+DocumentState.swift:104-118 | a string names a flag exactly when it is that flag's readable string |
| DocumentStateView.FlagNameRoundTrip | CloudSyncDocument/CloudSyncDocument/Detail/DetailViewController+DocumentState.swift:104-118 | each flag's readable string names that flag again |
| DocumentStateView.PresentInOrder | CloudSyncDocument/CloudSyncDocument/Detail/DetailViewController+DocumentState.swift:103-118 | the flags listed are exactly the present ones, in strictly increasing rank |
| DocumentStateView.ReadableStrings | CloudSyncDocument/CloudSyncDocument/Detail/DetailViewController+DocumentState.swift:103-118 | a flag's readable string is listed exactly when the flag is present |
| DocumentStateView.ReadableStringsRanked | CloudSyncDocument/CloudSyncDocument/Detail/DetailViewController+DocumentState.swift:103-118 | readable strings come in the order inConflict, editingDisabled, progressAvailable, savingError, closed |
| DocumentStateView.ReadableStringsDetermineState | CloudSyncDocument/CloudSyncDocument/Detail/DetailViewController+DocumentState.swift:103-118 | two states with the same readable strings are the same state |
| DocumentStateView.ArrayDescription | CloudSyncDocument/CloudSyncDocument/Detail/DetailViewController+DocumentState.swift:119 | an array prints in brackets, as `[]` exactly when it is empty; a non-empty one starts `["`, and a single element `x` prints as `["x"]` |
| DocumentStateView.DescriptionNamesAll | CloudSyncDocument/CloudSyncDocument/Detail/DetailViewController+DocumentState.swift:119 | every element of the array occurs, in double quotes, in its description |
| DocumentStateView.QuotedListAppend | CloudSyncDocument/CloudSyncDocument/Detail/DetailViewController+DocumentState.swift:119 | appending an element adds `, "x"` at the end, so elements are printed in their order |
| DocumentStateView.DocumentStateLine | CloudSyncDocument/CloudSyncDocument/Detail/DetailViewController+DocumentState.swift:98-120 | the logged line starts with `documentState: ` and ends in a bracket; for a state with flags the bracket opens a quoted name |
| DocumentStateView.LineNamesPresentFlags | CloudSyncDocument/CloudSyncDocument/Detail/DetailViewController+DocumentState.swift:98-120 | the name of every present flag occurs, in double quotes, in the logged line |
| DocumentStateView.TwoFlagsPresent | CloudSyncDocument/CloudSyncDocument/Detail/DetailViewController+DocumentState.swift:103-118 | a state of two flags lists both, the one earlier in the listing order first |
| DocumentStateView.ConflictedClosedLine | CloudSyncDocument/CloudSyncDocument/Detail/DetailViewController+DocumentState.swift:98-120 | a state in conflict and closed logs exactly `documentState: ["inConflict", "closed"]` |
| DocumentStateView.NormalLineOnlyForNormal | CloudSyncDocument/CloudSyncDocument/Detail/DetailViewController+DocumentState.swift:98-120 | the line `documentState: [normal]` is logged exactly for the normal state |
| DocumentLocation.RawValue | CloudSyncDocument/CloudSyncDocument/Main/MainViewController+Document.swift:18-21 | Documents maps to "Documents" and Data to "Data", and each string to only that scope |
| DocumentLocation.ScopeFromRawValue | CloudSyncDocument/CloudSyncDocument/Main/MainViewController+Document.swift:18-21 | a raw value gives a scope exactly when it is "Documents" or "Data" |
| DocumentLocation.RawValueRoundTrip | CloudSyncDocument/CloudSyncDocument/Main/MainViewController+Document.swift:18-21 | turning a scope's raw value back into a scope gives the same scope |
| DocumentLocation.UrlFor | CloudSyncDocument/CloudSyncDocument/Main/MainViewController+Document.swift:35-43 | nil exactly without a container root; otherwise root/scope/name.csdoc, with "Untitled" for an empty name |
| DocumentLocation.IsDocumentScopeUrl | CloudSyncDocument/CloudSyncDocument/Main/MainViewController+Document.swift:25-29 | a URL is in the Documents scope exactly when there is a root and the URL's path begins with the root's path followed by "/Documents" |
| DocumentLocation.NoRootNoDocumentScope | CloudSyncDocument/CloudSyncDocument/Main/MainViewController+Document.swift:25-26 | without a container root no URL is in the Documents scope |
| DocumentLocation.DocumentsUrlIsInScope | CloudSyncDocument/CloudSyncDocument/Main/MainViewController+Document.swift:25-43 | a document URL made for the Documents scope passes the scope test |
| DocumentLocation.DataUrlIsNotInScope | CloudSyncDocument/CloudSyncDocument/Main/MainViewController+Document.swift:25-43 | a document URL made for the Data scope never passes the scope test |
| DocumentLocation.SiblingFolderPassesPrefixTest | CloudSyncDocument/CloudSyncDocument/Main/MainViewController+Document.swift:28-29 | the scope test compares strings, so a sibling folder named "Documents" followed by an ASCII letter or digit passes it too |

## Left out

- Concurrency is not modelled. That covers the reader/writer `accessQueue`,
  `performAsynchronousFileAccess`, dispatch to the main queue and completion
  handlers. Each operation is one atomic step, and asynchronous callbacks are
  taken to have completed.
- `NSFileCoordinator`, `FileManager`, `FileWrapper(url:)`, `NSFileVersion` and
  `Data(contentsOf:)` are not modelled. Their outcomes are parameters
  (`SaveSteps`, `replaceSucceeds`/`removeSucceeds`, the `readable` maps).
- `UIImage` decoding and thumbnail generation are left out. Decoding is a
  parameter `decodes`, and an item is its name.
- `revert(toContentsOf:)`, `accommodatePresentedItemDeletion`, `handleError`
  and the alerts and spinners are UIKit plumbing, and are left out.
- The rest of the app is left out: document creation, opening and removal,
  metadata queries, table views, the image picker and the flow layout.
- The `.forCreating` branch of `save` calls the superclass's
  implementation. Only the contents it writes are modelled
  (`NewDocumentContents`).
- `DocumentModel.Load`: `fatalError` on contents that are not a directory is
  modelled as a `Failure` result, not as a crash.
- Urls.NameUrl: entry names are assumed to hold no URL syntax (':', '#',
  '?', '%'). Swift's `URL(string:)` would parse such a name as a scheme, a
  fragment, a query or an escape, so `lastPathComponent` would not give the name back. The model
  always gives it back.
- Logging with `print` is left out, apart from the line built by
  `printDocumentState(for:)`. That covers the warning on loading with
  unconsumed peer changes and the failure messages of removal, copy, version
  replacement and version removal.
- `PeerChanges.GatherPeerChanges`: `URL(string:)!` traps on a name that is
  not a valid URL string. The model assumes every entry name is one.
- Dates are integers. A missing modification date is `None`.
- `fileModificationDate` is only stamped by `Save`. Nothing is proved about
  its use by UIKit.
- `DocumentModel.ImageItems`: when `imageNames` is nil, the order of the items
  follows the dictionary's key order, which is a parameter.
- DocumentModel.RemoveUnsavedNewImageUrl: `remove(at:)` traps on an index
  out of range. The model makes a valid index a precondition instead.
- `CollectionView.DeleteCell` and `CollectionView.PresentedImage`: the
  optional chaining on a nil `document` is not modelled. The document is
  always present. With a nil document Swift presents nothing and never
  consults the cache.
- DocumentLocation.IsDocumentScopeUrl: the test compares Unicode scalar
  values. Swift's `hasPrefix` compares characters (grapheme clusters, under
  canonical equivalence), so a match must end on a character boundary. The
  two differ when a combining mark follows "Documents", or when the paths
  are spelled in different normal forms. `SiblingFolderPassesPrefixTest` is
  stated only for suffixes that start with an ASCII letter or digit.
- DocumentStateView.DocumentStateLine: the lemmas state that every present
  flag is named in the line, the exact line for one state, and that the
  description lists elements in order. That no absent flag's name occurs
  in the line is not stated.
- Components containing "/" are not modelled. Every URL component is atomic.
- The gathered diff does not leave out `Description.plist`. It is an entry
  like any other, as in the code; only `imageItems` skips it.

=== FILE: collection_view.dfy ===
/** The collection-view side of the detail view: deleting a thumbnail routes
    the deletion to the unsaved buffer, and presenting a full image falls back
    from the document to the cache folder. Items are identified by name, as
    `ImageItem` equality is. */
module CollectionView {

  import opened Wrappers
  import opened Seqs
  import opened Urls
  import opened PeerChanges
  import opened DocumentModel

  /** Position of the first URL whose last path component is `name`. */
  function FirstIndexNamed(urls: seq<Url>, name: string): (r: Option<nat>)
    ensures r.Some? ==> r.value < |urls| && LastPathComponent(urls[r.value]) == name
    ensures r.Some? ==> forall j | 0 <= j < r.value :: LastPathComponent(urls[j]) != name
    ensures r.None? ==> forall j | 0 <= j < |urls| :: LastPathComponent(urls[j]) != name
    decreases |urls|
  {
    if |urls| == 0 then None
    else if LastPathComponent(urls[0]) == name then Some(0)
    else
      var rest := FirstIndexNamed(urls[1..], name);
      if rest.None? then None else Some(rest.value + 1)
  }

  datatype DeleteOutcome = DeleteOutcome(document: Document, items: seq<string>)

  /** `deleteCell(_:)`. `item` is the name of the item shown by the cell, or
      None when the cell has no index path or no item; `items` are the names
      the collection view shows. An image added in this edit session (a
      pending URL with that last path component) is dropped from the pending
      URLs, the first such one; any other image is recorded as a pending
      deletion. Either way the item leaves the collection view. */
  function DeleteCell(doc: Document, items: seq<string>, item: Option<string>): (r: DeleteOutcome)
    ensures item.None? ==> r == DeleteOutcome(doc, items)
    ensures item.Some? ==> OnlyBufferChanged(doc, r.document)
    ensures item.Some? ==> forall n :: n in r.items <==> n in items && n != item.value
    ensures item.Some? ==> r.items == RemoveAll(items, [item.value])
    ensures item.Some? ==>
      var u := doc.unsavedUserChanges;
      var u' := r.document.unsavedUserChanges;
      match FirstIndexNamed(u.newImageUrls, item.value)
      case Some(k) =>
        && u'.newImageUrls == u.newImageUrls[..k] + u.newImageUrls[k + 1..]
        && u'.deletedImageNames == u.deletedImageNames
      case None =>
        && u'.newImageUrls == u.newImageUrls
        && u'.deletedImageNames == u.deletedImageNames + [item.value]
  {
    match item
    case None => DeleteOutcome(doc, items)
    case Some(name) =>
      var document := match FirstIndexNamed(doc.unsavedUserChanges.newImageUrls, name)
        case Some(index) => RemoveUnsavedNewImageUrl(doc, index)
        case None => AddUnsavedDeletedImageName(doc, name);
      DeleteOutcome(document, RemoveAll(items, [name]))
  }

  /** Each deletion changes exactly one of the two pending lists. */
  lemma DeletionChangesOneList(doc: Document, items: seq<string>, name: string)
    ensures var u := doc.unsavedUserChanges;
      var u' := DeleteCell(doc, items, Some(name)).document.unsavedUserChanges;
      (u'.newImageUrls != u.newImageUrls) != (u'.deletedImageNames != u.deletedImageNames)
  {
  }

  /** Deleting an image added earlier in the same session, before saving,
      undoes the addition: no deletion is recorded against the package. */
  lemma DeleteUndoesAdd(doc: Document, items: seq<string>, imageUrl: Url)
    requires forall u | u in doc.unsavedUserChanges.newImageUrls ::
      LastPathComponent(u) != LastPathComponent(imageUrl)
    ensures DeleteCell(AddUnsavedNewImageUrl(doc, imageUrl), items, Some(LastPathComponent(imageUrl))).document
         == doc
  {
  }

  /** The full image presented for `imageName`: the document's copy when it
      can be read and decoded, otherwise the copy in the cache folder, which
      is consulted only in that case. */
  function PresentedImage(files: map<string, Bytes>, cache: map<string, Bytes>,
                          decodes: Bytes -> bool, imageName: string): (r: Option<Bytes>)
    ensures RetrieveImage(files, decodes, imageName).Some? ==>
      r == RetrieveImage(files, decodes, imageName)
    ensures RetrieveImage(files, decodes, imageName).None? ==>
      r == RetrieveImage(cache, decodes, imageName)
    ensures r.Some? ==> decodes(r.value)
  {
    var fromDocument := RetrieveImage(files, decodes, imageName);
    if fromDocument.Some? then fromDocument else RetrieveImage(cache, decodes, imageName)
  }
}

=== FILE: conflicts.dfy ===
/** Conflict resolution of the detail view: the latest version wins
    (`pickLatestVersion(for:)`), the other versions are removed, and the
    `handleConflicts(_:)` guard. `NSFileVersion` is abstracted as an identity
    with an optional modification date; replacing the current version and
    removing the others are steps whose success is supplied from outside. */
module Conflicts {

  import opened Wrappers
  import opened DocumentModel

  datatype Version = Version(id: nat, modificationDate: Option<int>)

  /** `a` is dated later than `b`; a version without a date is never later,
      and nothing is later than it. */
  predicate Later(a: Version, b: Version)
    ensures Later(a, b) ==> a.modificationDate.Some? && b.modificationDate.Some?
    ensures Later(a, b) ==> a.modificationDate != b.modificationDate
  {
    a.modificationDate.Some? && b.modificationDate.Some?
    && a.modificationDate.value > b.modificationDate.value
  }

  /** Among dated versions `Later` is a strict total order on dates: never
      both ways, transitive, and two dated versions either compare or share
      their date. */
  lemma LaterIsStrictOrder(a: Version, b: Version, c: Version)
    ensures Later(a, b) ==> !Later(b, a)
    ensures Later(a, b) && Later(b, c) ==> Later(a, c)
    ensures a.modificationDate.Some? && b.modificationDate.Some? ==>
      (Later(a, b) || Later(b, a) || a.modificationDate == b.modificationDate)
  {
  }

  /** Where the winner of the loop of `pickLatestVersion` comes from: `None`
      when the current version stays the winner, otherwise the position of the
      winning conflict version. The winner is replaced only by a strictly
      later version, so the position is the FIRST one carrying the latest
      date, and only if that date is strictly later than the current one's. */
  function WinnerIndex(current: Version, versions: seq<Version>): (r: Option<nat>)
    ensures r.Some? ==> r.value < |versions| && Later(versions[r.value], current)
    ensures r.Some? ==> forall j | 0 <= j < r.value ::
      versions[j].modificationDate.Some? ==> Later(versions[r.value], versions[j])
    ensures r.Some? ==> forall j | r.value < j < |versions| :: !Later(versions[j], versions[r.value])
    ensures r.None? ==> forall j | 0 <= j < |versions| :: !Later(versions[j], current)
    decreases |versions|
  {
    if |versions| == 0 then None
    else
      var k := |versions| - 1;
      var before := WinnerIndex(current, versions[..k]);
      assert forall j | 0 <= j < k :: versions[..k][j] == versions[j];
      var incumbent := if before.None? then current else versions[before.value];
      if Later(versions[k], incumbent) then Some(k) else before
  }

  /** The winner: the current version unless some conflict version is
      strictly later. */
  function Winner(current: Version, versions: seq<Version>): (w: Version)
    ensures w == current || w in versions
    ensures w != current ==> Later(w, current)
    ensures current.modificationDate.Some? ==> w.modificationDate.Some?
    ensures current.modificationDate.Some? ==>
      forall v | v in versions && v.modificationDate.Some? ::
        v.modificationDate.value <= w.modificationDate.value
    ensures current.modificationDate.None? ==> w == current
  {
    match WinnerIndex(current, versions)
    case None => current
    case Some(k) =>
      assert forall j | 0 <= j < |versions| :: !Later(versions[j], versions[k]);
      versions[k]
  }

  /** The versions of the document as the file system reports them: either
      list may be unavailable. */
  datatype VersionStore = VersionStore(current: Option<Version>, conflicts: Option<seq<Version>>)

  datatype Resolution = Resolution(store: VersionStore, shouldRevert: bool)

  /** `pickLatestVersion(for:)`. Without a conflict list or a current version
      nothing happens and the answer is false. Otherwise the winner replaces
      the current version when it differs from it (`replaceSucceeds` says
      whether that works), and removing the other versions is attempted in
      every case (`removeSucceeds`). The answer is true exactly when a
      different winner was promoted. */
  function PickLatestVersion(store: VersionStore, replaceSucceeds: bool, removeSucceeds: bool)
    : (r: Resolution)
    ensures store.conflicts.None? || store.current.None? ==> r == Resolution(store, false)
    ensures store.conflicts.Some? && store.current.Some? ==>
      var w := Winner(store.current.value, store.conflicts.value);
      && (r.shouldRevert <==> w != store.current.value && replaceSucceeds)
      && r.store.current == (if r.shouldRevert then Some(w) else store.current)
      && r.store.conflicts == (if removeSucceeds then Some([]) else store.conflicts)
  {
    match (store.conflicts, store.current)
    case (Some(versionsInConflict), Some(currentVersion)) =>
      var winner := Winner(currentVersion, versionsInConflict);
      var shouldRevert := winner != currentVersion && replaceSucceeds;
      var current := if shouldRevert then Some(winner) else store.current;
      var conflicts := if removeSucceeds then Some([]) else store.conflicts;
      Resolution(VersionStore(current, conflicts), shouldRevert)
    case _ => Resolution(store, false)
  }

  /** Ties and undated versions never displace the current version: when no
      conflict version is strictly later, resolution never reverts. */
  lemma IncumbentKeptOnTies(current: Version, versions: seq<Version>,
                                               replaceSucceeds: bool, removeSucceeds: bool)
    requires forall v | v in versions :: !Later(v, current)
    ensures Winner(current, versions) == current
    ensures !PickLatestVersion(VersionStore(Some(current), Some(versions)),
                               replaceSucceeds, removeSucceeds).shouldRevert
  {
  }

  /** With no conflict versions the current version wins. */
  lemma NoConflictsKeepsCurrent(current: Version)
    ensures Winner(current, []) == current
  {
  }

  /** Current version dated 0 and conflict versions dated 1 and 2: the one
      dated 2 wins and the document reverts; a conflict version dated the same
      as the current one does not win. */
  lemma WorkedExamples()
    ensures var current := Version(0, Some(0));
      var r := PickLatestVersion(VersionStore(Some(current), Some([Version(1, Some(1)), Version(2, Some(2))])),
                                 true, true);
      r.shouldRevert && r.store.current == Some(Version(2, Some(2))) && r.store.conflicts == Some([])
    ensures var current := Version(0, Some(5));
      var r := PickLatestVersion(VersionStore(Some(current), Some([Version(1, Some(5))])), true, true);
      !r.shouldRevert && r.store.current == Some(current) && r.store.conflicts == Some([])
  {
  }

  /** What the Conflicts button does. */
  datatype ConflictAction = ConflictsButtonDisabled | Resolved(resolution: Resolution)

  /** `handleConflicts(_:)`: without a document, or with one that is not in
      conflict, the button is disabled and nothing else happens; otherwise the
      conflicts are resolved (and the document reverted when the resolution
      says so). */
  function HandleConflicts(doc: Option<Document>, store: VersionStore,
                           replaceSucceeds: bool, removeSucceeds: bool): (a: ConflictAction)
    ensures a.ConflictsButtonDisabled? <==> doc.None? || InConflict !in doc.value.documentState
    ensures a.Resolved? ==> a.resolution == PickLatestVersion(store, replaceSucceeds, removeSucceeds)
  {
    if doc.None? || InConflict !in doc.value.documentState then ConflictsButtonDisabled
    else Resolved(PickLatestVersion(store, replaceSucceeds, removeSucceeds))
  }
}

=== FILE: document.dfy ===
/** The `Document` (a `UIDocument` subclass) as an immutable record: the last
    known package listing, the buffer of unsaved user edits, the unpresented
    peer changes, and the pure core of loading, creating, saving and
    retrieving images. The dispatch-queue serialisation of the accessors is
    not modelled: every operation is one sequential step. */
module DocumentModel {

  import opened Wrappers
  import opened Seqs
  import opened Urls
  import opened PeerChanges

  /** `Document.extensionName`. */
  const ExtensionName: string := "csdoc"

  /** The metadata entry every package carries. */
  const DescriptionFileName: string := "Description.plist"

  /** The flags of `UIDocument.State`; the normal state is the empty set. */
  datatype Flag = InConflict | EditingDisabled | ProgressAvailable | SavingError | Closed

  type Bytes = seq<bv8>

  datatype Document = Document(
    fileUrl: Url,
    fileModificationDate: Option<int>,
    documentState: set<Flag>,
    /** `fileWrappersUnderRoot`: the package listing as last loaded or saved. */
    fileWrappersUnderRoot: Option<Snapshot>,
    /** Edits visible in the UI but not yet saved. */
    unsavedUserChanges: Changes,
    /** Changes that persist but do not appear in the UI yet. */
    unpresentedPeerChanges: Changes)

  /** What `load(fromContents:ofType:)` can be handed: a directory file wrapper
      (with its child listing), a regular file wrapper, or something else. */
  datatype Contents = DirectoryWrapper(fileWrappers: Snapshot) | RegularFileWrapper | OtherContents

  datatype LoadError = CorruptedDocument

  // ---------------------------------------------------------------------------
  // Creating and loading

  /** `contents(forType:)`: a new package holds exactly one entry, the
      description file (an in-memory wrapper carries no modification date). */
  function NewDocumentContents(): (c: Contents)
    ensures c.DirectoryWrapper?
    ensures c.fileWrappers.Keys == {DescriptionFileName}
  {
    DirectoryWrapper(map[DescriptionFileName := None])
  }

  /** `load(fromContents:ofType:)`. Contents that are not a directory wrapper
      are fatal. Otherwise any unconsumed peer changes are thrown away and
      replaced by the diff of the new listing against the known one, and the
      new listing becomes the known one; nothing else changes. `newOrder` and
      `oldOrder` are the iteration orders of the two dictionaries. */
  function Load(doc: Document, contents: Contents, newOrder: seq<string>, oldOrder: seq<string>)
    : (r: Result<Document, LoadError>)
    requires contents.DirectoryWrapper? ==> Enumerates(newOrder, contents.fileWrappers.Keys)
    requires doc.fileWrappersUnderRoot.Some? ==> Enumerates(oldOrder, doc.fileWrappersUnderRoot.value.Keys)
    ensures r.Failure? <==> !contents.DirectoryWrapper?
    ensures r.Success? ==> r.value.fileWrappersUnderRoot == Some(contents.fileWrappers)
    ensures r.Success? ==>
      Classifies(r.value.unpresentedPeerChanges, KnownOrEmpty(doc.fileWrappersUnderRoot), contents.fileWrappers)
    ensures r.Success? ==>
      r.value.(fileWrappersUnderRoot := doc.fileWrappersUnderRoot,
               unpresentedPeerChanges := doc.unpresentedPeerChanges) == doc
  {
    match contents
    case DirectoryWrapper(imageWrappers) =>
      var gathered := GatherPeerChanges(doc.fileWrappersUnderRoot, imageWrappers, newOrder, oldOrder);
      Success(doc.(unpresentedPeerChanges := gathered, fileWrappersUnderRoot := Some(imageWrappers)))
    case _ => Failure(CorruptedDocument)
  }

  /** Loading ignores the unconsumed peer changes: two documents that differ
      only there load to the same document. */
  lemma LoadDiscardsUnconsumedChanges(doc: Document, unconsumed: Changes, contents: Contents,
                                      newOrder: seq<string>, oldOrder: seq<string>)
    requires contents.DirectoryWrapper? ==> Enumerates(newOrder, contents.fileWrappers.Keys)
    requires doc.fileWrappersUnderRoot.Some? ==> Enumerates(oldOrder, doc.fileWrappersUnderRoot.value.Keys)
    ensures Load(doc.(unpresentedPeerChanges := unconsumed), contents, newOrder, oldOrder)
         == Load(doc, contents, newOrder, oldOrder)
  {
  }

  /** Loading the same package twice: the second load finds no peer change. */
  lemma ReloadFindsNoChange(doc: Document, contents: Contents,
                                               newOrder: seq<string>, oldOrder: seq<string>)
    requires contents.DirectoryWrapper?
    requires Enumerates(newOrder, contents.fileWrappers.Keys)
    requires doc.fileWrappersUnderRoot.Some? ==> Enumerates(oldOrder, doc.fileWrappersUnderRoot.value.Keys)
    ensures var first := Load(doc, contents, newOrder, oldOrder);
      && first.Success?
      && var second := Load(first.value, contents, newOrder, newOrder);
      && second.Success?
      && IsEmpty(second.value.unpresentedPeerChanges)
  {
    DiffOfSelfIsEmpty(contents.fileWrappers, newOrder);
  }

  /** Opening a freshly created package in a document that knows no listing
      reports the description file, and only it, as new. */
  lemma FirstLoadOfNewDocument(doc: Document)
    requires doc.fileWrappersUnderRoot.None?
    ensures var r := Load(doc, NewDocumentContents(), [DescriptionFileName], []);
      && r.Success?
      && NewNames(r.value.unpresentedPeerChanges) == {DescriptionFileName}
      && r.value.unpresentedPeerChanges.deletedImageNames == []
      && r.value.unpresentedPeerChanges.updatedImageNames == []
  {
  }

  // ---------------------------------------------------------------------------
  // The unsaved-edit buffer

  /** Only the unsaved buffer may differ between `doc` and `r`. */
  predicate OnlyBufferChanged(doc: Document, r: Document) {
    r.(unsavedUserChanges := doc.unsavedUserChanges) == doc
  }

  /** `addUnsavedNewImageURL(_:)`: appends to the end of the pending new URLs. */
  function AddUnsavedNewImageUrl(doc: Document, imageUrl: Url): (r: Document)
    ensures |r.unsavedUserChanges.newImageUrls| == |doc.unsavedUserChanges.newImageUrls| + 1
    ensures r.unsavedUserChanges.newImageUrls[..|doc.unsavedUserChanges.newImageUrls|]
         == doc.unsavedUserChanges.newImageUrls
    ensures r.unsavedUserChanges.newImageUrls[|doc.unsavedUserChanges.newImageUrls|] == imageUrl
    ensures r.unsavedUserChanges.deletedImageNames == doc.unsavedUserChanges.deletedImageNames
    ensures r.unsavedUserChanges.updatedImageNames == doc.unsavedUserChanges.updatedImageNames
    ensures OnlyBufferChanged(doc, r)
  {
    var u := doc.unsavedUserChanges;
    doc.(unsavedUserChanges := u.(newImageUrls := u.newImageUrls + [imageUrl]))
  }

  /** `removeUnsavedNewImageURL(at:)`: drops exactly position `index`, which
      must be in range (Swift traps otherwise). */
  function RemoveUnsavedNewImageUrl(doc: Document, index: nat): (r: Document)
    requires index < |doc.unsavedUserChanges.newImageUrls|
    ensures |r.unsavedUserChanges.newImageUrls| == |doc.unsavedUserChanges.newImageUrls| - 1
    ensures r.unsavedUserChanges.newImageUrls[..index] == doc.unsavedUserChanges.newImageUrls[..index]
    ensures r.unsavedUserChanges.newImageUrls[index..] == doc.unsavedUserChanges.newImageUrls[index + 1..]
    ensures r.unsavedUserChanges.deletedImageNames == doc.unsavedUserChanges.deletedImageNames
    ensures r.unsavedUserChanges.updatedImageNames == doc.unsavedUserChanges.updatedImageNames
    ensures OnlyBufferChanged(doc, r)
  {
    var u := doc.unsavedUserChanges;
    doc.(unsavedUserChanges := u.(newImageUrls := RemoveAt(u.newImageUrls, index)))
  }

  /** `addUnsavedDeletedImageName(_:)`: appends to the end of the pending deletions. */
  function AddUnsavedDeletedImageName(doc: Document, imageName: string): (r: Document)
    ensures |r.unsavedUserChanges.deletedImageNames| == |doc.unsavedUserChanges.deletedImageNames| + 1
    ensures r.unsavedUserChanges.deletedImageNames[..|doc.unsavedUserChanges.deletedImageNames|]
         == doc.unsavedUserChanges.deletedImageNames
    ensures r.unsavedUserChanges.deletedImageNames[|doc.unsavedUserChanges.deletedImageNames|] == imageName
    ensures r.unsavedUserChanges.newImageUrls == doc.unsavedUserChanges.newImageUrls
    ensures r.unsavedUserChanges.updatedImageNames == doc.unsavedUserChanges.updatedImageNames
    ensures OnlyBufferChanged(doc, r)
  {
    var u := doc.unsavedUserChanges;
    doc.(unsavedUserChanges := u.(deletedImageNames := u.deletedImageNames + [imageName]))
  }

  /** `clearUnsavedUserChanges()`: both pending lists end up empty. */
  function ClearUnsavedUserChanges(doc: Document): (r: Document)
    ensures IsEmpty(r.unsavedUserChanges)
    ensures OnlyBufferChanged(doc, r)
  {
    doc.(unsavedUserChanges := Clear(doc.unsavedUserChanges))
  }

  /** `clearUnpresentedPeerChanges()`: the peer changes end up empty, nothing
      else changes. */
  function ClearUnpresentedPeerChanges(doc: Document): (r: Document)
    ensures IsEmpty(r.unpresentedPeerChanges)
    ensures r.(unpresentedPeerChanges := doc.unpresentedPeerChanges) == doc
  {
    doc.(unpresentedPeerChanges := Clear(doc.unpresentedPeerChanges))
  }

  /** Removing the URL just appended restores the document. */
  lemma AddThenRemoveNewIsIdentity(doc: Document, imageUrl: Url)
    ensures var added := AddUnsavedNewImageUrl(doc, imageUrl);
      RemoveUnsavedNewImageUrl(added, |doc.unsavedUserChanges.newImageUrls|) == doc
  {
  }

  // ---------------------------------------------------------------------------
  // Saving

  /** Outcome of copying one pending image into the package. */
  datatype CopyResult = CopyFailed | Copied(modificationDate: Option<int>)

  /** The outcomes of the file-system steps of one save, supplied from outside:
      one per pending deletion (consulted only for a deletion whose file still
      exists; the others are skipped), one per pending copy, and
      whether reading the package listing back succeeds. */
  datatype SaveSteps = SaveSteps(deletions: seq<bool>, copies: seq<CopyResult>, rereadSucceeds: bool)

  datatype SaveResult = SaveResult(document: Document, package: Snapshot, success: bool)

  /** Deletion `i` still finds its file: the name is in the package and no
      earlier deletion of the same name succeeded. */
  predicate FindsFile(pkg: Snapshot, names: seq<string>, deletions: seq<bool>, i: nat)
    requires i < |names| == |deletions|
  {
    names[i] in pkg && forall j | 0 <= j < i :: names[j] == names[i] ==> !deletions[j]
  }

  /** The names some successful deletion removed. */
  function RemovedNames(names: seq<string>, deletions: seq<bool>): set<string>
    requires |names| == |deletions|
  {
    set i | 0 <= i < |names| && deletions[i] :: names[i]
  }

  /** The first loop of `fulfillUnsavedChanges`: a name whose file is absent is
      skipped and is no failure; a failed removal clears the success flag but
      the loop carries on. */
  function RemoveDeletedFiles(pkg: Snapshot, names: seq<string>, deletions: seq<bool>)
    : (r: (Snapshot, bool))
    requires |names| == |deletions|
    ensures r.0.Keys == pkg.Keys - RemovedNames(names, deletions)
    ensures forall n | n in r.0 :: r.0[n] == pkg[n]
    ensures r.1 <==> forall i | 0 <= i < |names| :: FindsFile(pkg, names, deletions, i) ==> deletions[i]
    decreases |names|
  {
    if |names| == 0 then (pkg, true)
    else
      var k := |names| - 1;
      var before := RemoveDeletedFiles(pkg, names[..k], deletions[..k]);
      assert RemovedNames(names, deletions)
          == RemovedNames(names[..k], deletions[..k]) + (if deletions[k] then {names[k]} else {});
      assert forall i | 0 <= i < k ::
        FindsFile(pkg, names, deletions, i) == FindsFile(pkg, names[..k], deletions[..k], i);
      assert names[k] in before.0 <==> FindsFile(pkg, names, deletions, k);
      if names[k] !in before.0 then before
      else if deletions[k] then (before.0 - {names[k]}, before.1)
      else (before.0, false)
  }

  /** The names some successful copy wrote (each under its last path component). */
  function CopiedNames(urls: seq<Url>, copies: seq<CopyResult>): set<string>
    requires |urls| == |copies|
  {
    set i | 0 <= i < |urls| && copies[i].Copied? :: LastPathComponent(urls[i])
  }

  /** Copy `i` succeeded and no later copy to the same name succeeded, so the
      file it wrote is the one left in the package. */
  predicate LastCopyOf(urls: seq<Url>, copies: seq<CopyResult>, i: nat)
    requires i < |urls| == |copies|
  {
    && copies[i].Copied?
    && forall j | i < j < |urls| :: LastPathComponent(urls[j]) == LastPathComponent(urls[i]) ==> !copies[j].Copied?
  }

  /** The second loop of `fulfillUnsavedChanges`: each pending URL is copied
      under its last path component; a failed copy clears the success flag
      but the loop carries on. */
  function CopyNewFiles(pkg: Snapshot, urls: seq<Url>, copies: seq<CopyResult>)
    : (r: (Snapshot, bool))
    requires |urls| == |copies|
    ensures r.0.Keys == pkg.Keys + CopiedNames(urls, copies)
    ensures forall n | n in pkg && n !in CopiedNames(urls, copies) :: r.0[n] == pkg[n]
    ensures r.1 <==> forall i | 0 <= i < |copies| :: copies[i].Copied?
    decreases |urls|
  {
    if |urls| == 0 then (pkg, true)
    else
      var k := |urls| - 1;
      var before := CopyNewFiles(pkg, urls[..k], copies[..k]);
      assert CopiedNames(urls, copies)
          == CopiedNames(urls[..k], copies[..k]) + (if copies[k].Copied? then {LastPathComponent(urls[k])} else {});
      match copies[k]
      case Copied(date) => (before.0[LastPathComponent(urls[k]) := date], before.1)
      case CopyFailed => (before.0, false)
  }

  /** Each copied name carries the date of the last successful copy to it. */
  lemma CopiedDates(pkg: Snapshot, urls: seq<Url>, copies: seq<CopyResult>)
    requires |urls| == |copies|
    ensures forall i | 0 <= i < |urls| && LastCopyOf(urls, copies, i) ::
      && LastPathComponent(urls[i]) in CopyNewFiles(pkg, urls, copies).0
      && CopyNewFiles(pkg, urls, copies).0[LastPathComponent(urls[i])] == copies[i].modificationDate
  {
    forall i | 0 <= i < |urls| && LastCopyOf(urls, copies, i)
      ensures LastPathComponent(urls[i]) in CopyNewFiles(pkg, urls, copies).0
      ensures CopyNewFiles(pkg, urls, copies).0[LastPathComponent(urls[i])] == copies[i].modificationDate
    {
      CopiedDate(pkg, urls, copies, i);
    }
  }

  /** `CopiedDates` for one index, by induction on the number of copies: the
      last copy `k` sets its own name, and an earlier last copy `i` keeps the
      date the prefix gave it, since `k` either copies to another name or
      fails. */
  lemma {:induction false} CopiedDate(pkg: Snapshot, urls: seq<Url>, copies: seq<CopyResult>, i: nat)
    requires i < |urls| == |copies| && LastCopyOf(urls, copies, i)
    ensures LastPathComponent(urls[i]) in CopyNewFiles(pkg, urls, copies).0
    ensures CopyNewFiles(pkg, urls, copies).0[LastPathComponent(urls[i])] == copies[i].modificationDate
    decreases |urls|
  {
    var k := |urls| - 1;
    var before := CopyNewFiles(pkg, urls[..k], copies[..k]).0;
    var after := CopyNewFiles(pkg, urls, copies).0;
    assert after == if copies[k].Copied? then before[LastPathComponent(urls[k]) := copies[k].modificationDate] else before;
    if i < k {
      assert LastCopyOf(urls[..k], copies[..k], i);
      CopiedDate(pkg, urls[..k], copies[..k], i);
    }
  }

  /** `fulfillUnsavedChanges()` on the package `pkg`: deletions first, then
      copies, both best-effort; then the listing is read back (becoming absent
      if that fails) and the unsaved buffer is cleared. The result is true
      exactly when no attempted step failed. */
  function FulfillUnsavedChanges(doc: Document, pkg: Snapshot, steps: SaveSteps): (r: SaveResult)
    requires |steps.deletions| == |doc.unsavedUserChanges.deletedImageNames|
    requires |steps.copies| == |doc.unsavedUserChanges.newImageUrls|
    ensures var u := doc.unsavedUserChanges;
      r.package.Keys == (pkg.Keys - RemovedNames(u.deletedImageNames, steps.deletions))
                        + CopiedNames(u.newImageUrls, steps.copies)
    ensures var u := doc.unsavedUserChanges;
      forall n | n in r.package && n !in CopiedNames(u.newImageUrls, steps.copies) :: r.package[n] == pkg[n]
    ensures var u := doc.unsavedUserChanges;
      forall i | 0 <= i < |u.newImageUrls| && LastCopyOf(u.newImageUrls, steps.copies, i) ::
        r.package[LastPathComponent(u.newImageUrls[i])] == steps.copies[i].modificationDate
    ensures var u := doc.unsavedUserChanges;
      r.success <==>
        && (forall i | 0 <= i < |u.deletedImageNames| ::
              FindsFile(pkg, u.deletedImageNames, steps.deletions, i) ==> steps.deletions[i])
        && (forall i | 0 <= i < |steps.copies| :: steps.copies[i].Copied?)
    ensures r.document.fileWrappersUnderRoot == (if steps.rereadSucceeds then Some(r.package) else None)
    ensures IsEmpty(r.document.unsavedUserChanges)
    ensures r.document.(fileWrappersUnderRoot := doc.fileWrappersUnderRoot,
                        unsavedUserChanges := doc.unsavedUserChanges) == doc
  {
    var u := doc.unsavedUserChanges;
    var (afterDeletes, deletesOk) := RemoveDeletedFiles(pkg, u.deletedImageNames, steps.deletions);
    var (afterCopies, copiesOk) := CopyNewFiles(afterDeletes, u.newImageUrls, steps.copies);
    CopiedDates(afterDeletes, u.newImageUrls, steps.copies);
    var reread := if steps.rereadSucceeds then Some(afterCopies) else None;
    var saved := ClearUnsavedUserChanges(doc.(fileWrappersUnderRoot := reread));
    SaveResult(saved, afterCopies, deletesOk && copiesOk)
  }

  /** `save(to:for:)` for every operation but creation: the coordinated flush
      of the unsaved buffer, after which the document's modification date is
      the time `now` of the save. */
  function Save(doc: Document, pkg: Snapshot, steps: SaveSteps, now: int): (r: SaveResult)
    requires |steps.deletions| == |doc.unsavedUserChanges.deletedImageNames|
    requires |steps.copies| == |doc.unsavedUserChanges.newImageUrls|
    ensures r.document.fileModificationDate == Some(now)
    ensures IsEmpty(r.document.unsavedUserChanges)
    ensures var f := FulfillUnsavedChanges(doc, pkg, steps);
      r.package == f.package && r.success == f.success
      && r.document == f.document.(fileModificationDate := Some(now))
  {
    var f := FulfillUnsavedChanges(doc, pkg, steps);
    f.(document := f.document.(fileModificationDate := Some(now)))
  }

  /** A save with nothing pending changes nothing on disk and succeeds. */
  lemma EmptySaveSucceeds(doc: Document, pkg: Snapshot, rereadSucceeds: bool)
    requires IsEmpty(doc.unsavedUserChanges)
    ensures var r := FulfillUnsavedChanges(doc, pkg, SaveSteps([], [], rereadSucceeds));
      r.success && r.package == pkg
  {
  }

  /** Save-then-load: diffing the saved listing against the one before the
      save reports as updated only names a copy wrote; every other entry keeps
      its date. */
  lemma {:induction false} OnlyCopiesAreUpdated(doc: Document, pkg: Snapshot, steps: SaveSteps,
                                               newOrder: seq<string>, oldOrder: seq<string>)
    requires |steps.deletions| == |doc.unsavedUserChanges.deletedImageNames|
    requires |steps.copies| == |doc.unsavedUserChanges.newImageUrls|
    requires Enumerates(oldOrder, pkg.Keys)
    requires Enumerates(newOrder, FulfillUnsavedChanges(doc, pkg, steps).package.Keys)
    ensures var r := FulfillUnsavedChanges(doc, pkg, steps);
      var c := GatherPeerChanges(Some(pkg), r.package, newOrder, oldOrder);
      forall n | n in c.updatedImageNames :: n in CopiedNames(doc.unsavedUserChanges.newImageUrls, steps.copies)
  {
    var r := FulfillUnsavedChanges(doc, pkg, steps);
    var c := GatherPeerChanges(Some(pkg), r.package, newOrder, oldOrder);
    var copied := CopiedNames(doc.unsavedUserChanges.newImageUrls, steps.copies);
    forall n | n in c.updatedImageNames ensures n in copied {
      assert n in Elements(c.updatedImageNames);
      assert n in UpdatedNames(pkg, r.package);
    }
  }

  /** Save-then-load: after one pending image (absent from the package) is
      copied successfully, diffing the saved listing against the pre-save one
      reports that image as new exactly once. */
  lemma SavedImageIsNewOnce(doc: Document, pkg: Snapshot, imageUrl: Url,
                                               date: Option<int>, newOrder: seq<string>,
                                               oldOrder: seq<string>)
    requires doc.unsavedUserChanges == Changes([imageUrl], [], [])
    requires LastPathComponent(imageUrl) !in pkg
    requires Enumerates(oldOrder, pkg.Keys)
    requires var r := FulfillUnsavedChanges(doc, pkg, SaveSteps([], [Copied(date)], true));
      Enumerates(newOrder, r.package.Keys)
    ensures var r := FulfillUnsavedChanges(doc, pkg, SaveSteps([], [Copied(date)], true));
      var c := GatherPeerChanges(Some(pkg), r.package, newOrder, oldOrder);
      c.newImageUrls == [NameUrl(LastPathComponent(imageUrl))]
  {
    var name := LastPathComponent(imageUrl);
    var r := FulfillUnsavedChanges(doc, pkg, SaveSteps([], [Copied(date)], true));
    assert CopiedNames([imageUrl], [Copied(date)]) == {name};
    assert RemovedNames([], []) == {};
    var c := GatherPeerChanges(Some(pkg), r.package, newOrder, oldOrder);
    assert NewNames(c) == {name};
    forall i | 0 <= i < |c.newImageUrls| ensures c.newImageUrls[i] == NameUrl(name) {
      assert LastPathComponent(c.newImageUrls[i]) in NewNames(c);
    }
    DistinctConstantIsShort(c.newImageUrls, NameUrl(name));
    NoNewNames(c);
    assert |c.newImageUrls| == 1 ==> c.newImageUrls == [c.newImageUrls[0]];
  }

  // ---------------------------------------------------------------------------
  // Retrieving images

  /** The image entries `imageItems(with:)` produces from `names`: the
      description file and entries whose data cannot be read are skipped, the
      rest keep their order and multiplicity. */
  function ReadableImageNames(names: seq<string>, readable: map<string, Bytes>): (r: seq<string>)
    ensures forall n :: multiset(r)[n]
                        == (if n != DescriptionFileName && n in readable then multiset(names)[n] else 0)
    ensures |r| <= |names|
    decreases |names|
  {
    if |names| == 0 then []
    else
      var k := |names| - 1;
      assert names == names[..k] + [names[k]];
      var rest := ReadableImageNames(names[..k], readable);
      if names[k] != DescriptionFileName && names[k] in readable then rest + [names[k]] else rest
  }

  /** The names are filtered one by one: on a concatenation the result is the
      concatenation of the two results, so the kept names keep their order. */
  lemma {:induction false} ReadableImageNamesAppend(a: seq<string>, b: seq<string>, readable: map<string, Bytes>)
    ensures ReadableImageNames(a + b, readable) == ReadableImageNames(a, readable) + ReadableImageNames(b, readable)
    decreases |b|
  {
    if |b| == 0 {
      assert a + b == a;
    } else {
      var k := |b| - 1;
      assert (a + b)[..|a + b| - 1] == a + b[..k];
      assert (a + b)[|a + b| - 1] == b[k];
      ReadableImageNamesAppend(a, b[..k], readable);
    }
  }

  /** One name is kept exactly when it is not the description file and its
      data can be read. */
  lemma ReadableImageNamesSingle(n: string, readable: map<string, Bytes>)
    ensures ReadableImageNames([n], readable) == if n != DescriptionFileName && n in readable then [n] else []
  {
  }

  /** The names kept are exactly the readable ones other than the description file. */
  lemma ReadableImageNamesMembers(names: seq<string>, readable: map<string, Bytes>)
    ensures forall n | n in ReadableImageNames(names, readable) ::
      n in names && n != DescriptionFileName && n in readable
    ensures forall n | n in names && n != DescriptionFileName && n in readable ::
      n in ReadableImageNames(names, readable)
  {
    var items := ReadableImageNames(names, readable);
    forall n | n in names && n != DescriptionFileName && n in readable ensures n in items {
      assert multiset(names)[n] > 0;
    }
    forall n | n in items ensures n in names && n != DescriptionFileName && n in readable {
      assert multiset(items)[n] > 0;
    }
  }

  /** `imageItems(with:)` (thumbnails left out, so an item is its name). No
      listing gives nil; without explicit names every key of the listing is
      used, in the order `keyOrder`; `readable` holds the package files whose
      data can be read. An empty result is reported as nil. */
  function ImageItems(doc: Document, imageNames: Option<seq<string>>, keyOrder: seq<string>,
                      readable: map<string, Bytes>): (r: Option<seq<string>>)
    requires doc.fileWrappersUnderRoot.Some? && imageNames.None? ==>
      Enumerates(keyOrder, doc.fileWrappersUnderRoot.value.Keys)
    ensures doc.fileWrappersUnderRoot.None? ==> r.None?
    ensures r.Some? ==> |r.value| > 0
    ensures r.Some? ==> forall n | n in r.value :: n != DescriptionFileName && n in readable
    ensures doc.fileWrappersUnderRoot.Some? ==>
      forall n | n in imageNames.GetOr(keyOrder) && n != DescriptionFileName && n in readable ::
        r.Some? && n in r.value
    ensures r.Some? && imageNames.Some? ==> forall n | n in r.value :: n in imageNames.value
    ensures r.Some? && imageNames.None? ==> forall n | n in r.value :: n in doc.fileWrappersUnderRoot.value
    ensures doc.fileWrappersUnderRoot.Some? ==>
      r.GetOr([]) == ReadableImageNames(imageNames.GetOr(keyOrder), readable)
  {
    match doc.fileWrappersUnderRoot
    case None => None
    case Some(imageWrappers) =>
      var names := imageNames.GetOr(keyOrder);
      var items := ReadableImageNames(names, readable);
      ReadableImageNamesMembers(names, readable);
      if |items| == 0 then None else Some(items)
  }

  /** `retrieveImageAsynchronously(with:)`: the image whose data is in the
      package and decodes (`decodes` stands for `UIImage(data:)`); nil when
      the file does not exist yet or does not decode. */
  function RetrieveImage(files: map<string, Bytes>, decodes: Bytes -> bool, imageName: string)
    : (r: Option<Bytes>)
    ensures r.Some? <==> imageName in files && decodes(files[imageName])
    ensures r.Some? ==> r.value == files[imageName]
  {
    if imageName in files && decodes(files[imageName]) then Some(files[imageName]) else None
  }
}

=== FILE: document_location.dfy ===
/** Where documents live in the iCloud container: the two scopes, the URL a
    new document gets, and the test for the Documents scope. The container
    root is `None` when iCloud is unavailable. */
module DocumentLocation {
  import opened Wrappers
  import opened Urls
  import DocumentModel

  /** The folders of the container a document can be created in. */
  datatype Scope = Documents | Data

  /** The folder name of a scope; different scopes have different folders. */
  function RawValue(s: Scope): (r: string)
    ensures s == Documents <==> r == "Documents"
    ensures s == Data <==> r == "Data"
  {
    match s
    case Documents => "Documents"
    case Data => "Data"
  }

  /** `Scope(rawValue:)`. */
  function ScopeFromRawValue(raw: string): (r: Option<Scope>)
    ensures forall s :: r == Some(s) <==> RawValue(s) == raw
  {
    if raw == "Documents" then Some(Documents)
    else if raw == "Data" then Some(Data)
    else None
  }

  lemma RawValueRoundTrip(s: Scope)
    ensures ScopeFromRawValue(RawValue(s)) == Some(s)
  {
  }

  const DefaultName := "Untitled"

  /** `url(for:scope:)`: `<root>/<scope>/<name>.csdoc`, with "Untitled" for an
      empty name, and no URL without a container root. */
  function UrlFor(root: Option<Url>, fileName: string, scope: Scope): (r: Option<Url>)
    ensures r.None? <==> root.None?
    ensures r.Some? ==>
      var name := if fileName == "" then DefaultName else fileName;
      && LastPathComponent(r.value) == name + "." + DocumentModel.ExtensionName
      && DeletingLastPathComponent(r.value) == AppendingPathComponent(root.value, RawValue(scope))
      && DeletingLastPathComponent(DeletingLastPathComponent(r.value)) == root.value
      && Path(r.value) == Path(root.value) + "/" + RawValue(scope) + "/" + name + "." + DocumentModel.ExtensionName
  {
    if root.None? then None
    else
      var folder := AppendingPathComponent(root.value, RawValue(scope));
      var name := if fileName == "" then DefaultName else fileName;
      var url := AppendingPathComponent(folder, name);
      Some(AppendingPathExtension(url, DocumentModel.ExtensionName))
  }

  /** `isDocumentScopeURL(_:)`: the path of `fileUrl` begins with the path of
      the Documents folder, compared as plain strings. */
  predicate IsDocumentScopeUrl(root: Option<Url>, fileUrl: Url)
    ensures IsDocumentScopeUrl(root, fileUrl) <==>
      root.Some? && Path(root.value) + "/" + "Documents" <= Path(fileUrl)
  {
    root.Some? && Path(AppendingPathComponent(root.value, RawValue(Documents))) <= Path(fileUrl)
  }

  /** Without a container root nothing is in the Documents scope. */
  lemma NoRootNoDocumentScope(fileUrl: Url)
    ensures !IsDocumentScopeUrl(None, fileUrl)
  {
  }

  /** A document created in the Documents scope is in the Documents scope. */
  lemma DocumentsUrlIsInScope(root: Url, fileName: string)
    ensures UrlFor(Some(root), fileName, Documents).Some?
    ensures IsDocumentScopeUrl(Some(root), UrlFor(Some(root), fileName, Documents).value)
  {
  }

  /** A document created in the Data scope is never in the Documents scope. */
  lemma DataUrlIsNotInScope(root: Url, fileName: string)
    ensures UrlFor(Some(root), fileName, Data).Some?
    ensures !IsDocumentScopeUrl(Some(root), UrlFor(Some(root), fileName, Data).value)
  {
    var prefix := Path(AppendingPathComponent(root, "Documents"));
    var path := Path(UrlFor(Some(root), fileName, Data).value);
    var k := |Path(root)| + 2;
    assert prefix[k] == 'o';
    assert path[k] == 'a';
  }

  /** The test compares strings, not components: any folder beside Documents
      whose name is "Documents" followed by an ASCII letter or digit passes it
      too. (After a combining mark Swift's `hasPrefix` would not match, as it
      compares whole characters; this is not modelled.) */
  lemma SiblingFolderPassesPrefixTest(root: Url, suffix: string, fileName: string)
    requires suffix == [] || 'a' <= suffix[0] <= 'z' || 'A' <= suffix[0] <= 'Z' || '0' <= suffix[0] <= '9'
    ensures IsDocumentScopeUrl(Some(root),
      AppendingPathComponent(AppendingPathComponent(root, "Documents" + suffix), fileName))
  {
  }
}

=== FILE: document_state.dfy ===
/** How the detail view reacts to a change of the document's state: the two
    bar-button enablements, the consume-then-clear of unpresented peer
    changes and their application to the collection view, and the readable
    rendering of the state that is logged. */
module DocumentStateView {

  import opened Wrappers
  import opened Seqs
  import opened Urls
  import opened PeerChanges
  import opened DocumentModel

  /** The detail view as far as state changes touch it: its title, the names
      of the items it shows, and whether the Edit and Conflicts buttons are
      enabled. */
  datatype DetailView = DetailView(title: string, items: seq<string>, editEnabled: bool,
                                   conflictsEnabled: bool)

  /** The names of the images that new-entry URLs stand for. */
  function UrlNames(urls: seq<Url>): (r: seq<string>)
    ensures |r| == |urls|
    ensures forall i | 0 <= i < |urls| :: r[i] == LastPathComponent(urls[i])
  {
    seq(|urls|, i requires 0 <= i < |urls| => LastPathComponent(urls[i]))
  }

  /** A new entry's name survives the trip to a URL and back through its last
      path component. */
  lemma NewNamesRoundTrip(names: seq<string>)
    ensures UrlNames(NameUrls(names)) == names
  {
  }

  /** Every new URL's last path component is among its names. */
  lemma UrlNamesCover(urls: seq<Url>)
    ensures forall u | u in urls :: LastPathComponent(u) in UrlNames(urls)
  {
    forall u | u in urls ensures LastPathComponent(u) in UrlNames(urls) {
      var i :| 0 <= i < |urls| && urls[i] == u;
      assert UrlNames(urls)[i] == LastPathComponent(u);
    }
  }

  datatype CollectionUpdate = CollectionUpdate(items: seq<string>, reloaded: seq<string>)

  /** `updateCollectionView(with:)`, with its asynchronous parts taken to have
      completed: deleted names leave the list, the items of the updated names
      are reloaded (which keeps the list of names), and the items of the new
      entries, looked up by the last path component of their URLs, are
      appended. `readable` holds the package files whose data can be read. */
  function UpdateCollectionView(items: seq<string>, changes: Changes, doc: Document,
                                readable: map<string, Bytes>): (r: CollectionUpdate)
    ensures forall n | n in items && n !in changes.deletedImageNames :: n in r.items
    ensures forall n | n in r.items ::
      || (n in items && n !in changes.deletedImageNames)
      || (n in UrlNames(changes.newImageUrls) && n in readable && n != DescriptionFileName)
    ensures forall n | n in changes.deletedImageNames && n !in UrlNames(changes.newImageUrls) ::
      n !in r.items
    ensures doc.fileWrappersUnderRoot.Some? ==>
      forall u | u in changes.newImageUrls && LastPathComponent(u) in readable
                 && LastPathComponent(u) != DescriptionFileName :: LastPathComponent(u) in r.items
    ensures forall n | n in r.reloaded :: n in changes.updatedImageNames && n in readable
    ensures doc.fileWrappersUnderRoot.Some? ==>
      forall n | n in changes.updatedImageNames && n in readable && n != DescriptionFileName ::
        n in r.reloaded
    ensures IsEmpty(changes) ==> r == CollectionUpdate(items, [])
    ensures r.items == RemoveAll(items, changes.deletedImageNames)
      + (if doc.fileWrappersUnderRoot.Some? then ReadableImageNames(UrlNames(changes.newImageUrls), readable)
         else [])
    ensures r.reloaded == if doc.fileWrappersUnderRoot.Some?
                          then ReadableImageNames(changes.updatedImageNames, readable) else []
  {
    RemoveAllNothing(items);
    var kept := if |changes.deletedImageNames| > 0 then RemoveAll(items, changes.deletedImageNames)
                else items;
    var reloaded := if |changes.updatedImageNames| > 0
                    then ImageItems(doc, Some(changes.updatedImageNames), [], readable).GetOr([])
                    else [];
    var newNames := UrlNames(changes.newImageUrls);
    var appended := if |changes.newImageUrls| > 0
                    then ImageItems(doc, Some(newNames), [], readable).GetOr([])
                    else [];
    UrlNamesCover(changes.newImageUrls);
    ReadableImageNamesMembers(newNames, readable);
    ReadableImageNamesMembers(changes.updatedImageNames, readable);
    CollectionUpdate(kept + appended, reloaded)
  }

  /** Items a, b, c with b deleted and a readable new image d: the view shows
      a, c, d in that order, and nothing is reloaded. */
  lemma UpdateKeepsOrderExample(doc: Document, data: Bytes)
    requires doc.fileWrappersUnderRoot.Some?
    ensures UpdateCollectionView(["a", "b", "c"], Changes([NameUrl("d")], ["b"], []), doc, map["d" := data])
         == CollectionUpdate(["a", "c", "d"], [])
  {
    var r := UpdateCollectionView(["a", "b", "c"], Changes([NameUrl("d")], ["b"], []), doc, map["d" := data]);
    KeptInOrder();
    NewImageKept(data);
    assert r.items == ["a", "c"] + ["d"];
  }

  /** The deletion step of the example: a, b, c without b is a, c. */
  lemma KeptInOrder()
    ensures RemoveAll(["a", "b", "c"], ["b"]) == ["a", "c"]
  {
    assert ["a", "b", "c"] == ["a"] + ["b"] + ["c"];
    RemoveAllAppend(["a"] + ["b"], ["c"], ["b"]);
    RemoveAllAppend(["a"], ["b"], ["b"]);
    RemoveAllSingle("a", ["b"]);
    RemoveAllSingle("b", ["b"]);
    RemoveAllSingle("c", ["b"]);
  }

  /** The appending step of the example: the readable new image d is kept. */
  lemma NewImageKept(data: Bytes)
    ensures ReadableImageNames(UrlNames([NameUrl("d")]), map["d" := data]) == ["d"]
  {
    assert UrlNames([NameUrl("d")]) == ["d"];
    ReadableImageNamesSingle("d", map["d" := data]);
  }

  datatype StateReaction = StateReaction(view: DetailView, document: Option<Document>)

  /** The peer changes are taken from the document, cleared there, and
      applied to the view; with none pending nothing happens. */
  function PresentPeerChanges(view: DetailView, doc: Document, readable: map<string, Bytes>)
    : (r: StateReaction)
    ensures r.document.Some? && IsEmpty(r.document.value.unpresentedPeerChanges)
    ensures r.document.value.(unpresentedPeerChanges := doc.unpresentedPeerChanges) == doc
    ensures r.view == view.(items := UpdateCollectionView(view.items, doc.unpresentedPeerChanges,
                                                          doc, readable).items)
  {
    if !IsEmpty(doc.unpresentedPeerChanges) then
      var changes := doc.unpresentedPeerChanges;
      var cleared := ClearUnpresentedPeerChanges(doc);
      StateReaction(view.(items := UpdateCollectionView(view.items, changes, cleared, readable).items),
                    Some(cleared))
    else
      EmptyChangesAreCleared(doc.unpresentedPeerChanges);
      StateReaction(view, Some(doc))
  }

  /** An empty value is already the cleared value. */
  lemma EmptyChangesAreCleared(c: Changes)
    ensures IsEmpty(c) ==> c == Clear(c)
  {
  }

  /** `documentStateChanged(_:)`. Exactly normal: Edit on, Conflicts off,
      pending peer changes presented. Exactly in conflict: both on, pending
      peer changes presented. Exactly closed: both off, the title and the
      item list emptied. Any other set of flags: in conflict turns Conflicts
      on, then editing disabled turns both off; the rest is left as it was. */
  function DocumentStateChanged(view: DetailView, doc: Option<Document>, readable: map<string, Bytes>)
    : (r: StateReaction)
    ensures doc.None? ==> r == StateReaction(view, doc)
    ensures doc.Some? && doc.value.documentState == {} ==>
      r.view.editEnabled && !r.view.conflictsEnabled
    ensures doc.Some? && doc.value.documentState == {InConflict} ==>
      r.view.editEnabled && r.view.conflictsEnabled
    ensures doc.Some? && doc.value.documentState == {Closed} ==>
      r == StateReaction(view.(title := "", items := [], editEnabled := false, conflictsEnabled := false), doc)
    ensures doc.Some? && (doc.value.documentState == {} || doc.value.documentState == {InConflict}) ==>
      && r.document.Some?
      && IsEmpty(r.document.value.unpresentedPeerChanges)
      && r.view.items == UpdateCollectionView(view.items, doc.value.unpresentedPeerChanges,
                                              doc.value, readable).items
    ensures doc.Some? && EditingDisabled in doc.value.documentState ==>
      !r.view.editEnabled && !r.view.conflictsEnabled
    ensures doc.Some? && InConflict in doc.value.documentState && EditingDisabled !in doc.value.documentState ==>
      r.view.conflictsEnabled
    ensures doc.Some? && doc.value.documentState !in {{}, {InConflict}, {Closed}} ==>
      && r.document == doc
      && r.view.items == view.items && r.view.title == view.title
      && (EditingDisabled !in doc.value.documentState ==> r.view.editEnabled == view.editEnabled)
      && (InConflict !in doc.value.documentState && EditingDisabled !in doc.value.documentState ==>
            r.view == view)
    ensures doc.Some? && doc.value.documentState != {Closed} ==> r.view.title == view.title
    ensures doc.Some? ==>
      && r.document.Some?
      && r.document.value.(unpresentedPeerChanges := doc.value.unpresentedPeerChanges) == doc.value
  {
    match doc
    case None => StateReaction(view, doc)
    case Some(document) =>
      var state := document.documentState;
      if state == {} then
        PresentPeerChanges(view.(editEnabled := true, conflictsEnabled := false), document, readable)
      else if state == {InConflict} then
        PresentPeerChanges(view.(editEnabled := true, conflictsEnabled := true), document, readable)
      else if state == {Closed} then
        StateReaction(view.(editEnabled := false, conflictsEnabled := false, title := "", items := []), doc)
      else
        var v1 := if InConflict in state then view.(conflictsEnabled := true) else view;
        var v2 := if EditingDisabled in state then v1.(editEnabled := false, conflictsEnabled := false)
                  else v1;
        StateReaction(v2, doc)
  }

  /** Peer changes are presented once: a second notification in the same
      state leaves the items and the document as the first one left them. */
  lemma PeerChangesPresentedOnce(view: DetailView, doc: Document,
                                                   readable: map<string, Bytes>)
    requires doc.documentState == {} || doc.documentState == {InConflict}
    ensures var first := DocumentStateChanged(view, Some(doc), readable);
            var second := DocumentStateChanged(first.view, first.document, readable);
            second.view == first.view && second.document == first.document
  {
  }

  // ---------------------------------------------------------------------------
  // The logged rendering of the state

  /** The order in which present flags are listed. */
  function Rank(f: Flag): nat {
    match f
    case InConflict => 0
    case EditingDisabled => 1
    case ProgressAvailable => 2
    case SavingError => 3
    case Closed => 4
  }

  function FlagName(f: Flag): string {
    match f
    case InConflict => "inConflict"
    case EditingDisabled => "editingDisabled"
    case ProgressAvailable => "progressAvailable"
    case SavingError => "savingError"
    case Closed => "closed"
  }

  /** The flag a readable string names, if any. */
  function FlagNamed(name: string): (r: Option<Flag>)
    ensures forall f :: r == Some(f) <==> FlagName(f) == name
  {
    if name == "inConflict" then Some(InConflict)
    else if name == "editingDisabled" then Some(EditingDisabled)
    else if name == "progressAvailable" then Some(ProgressAvailable)
    else if name == "savingError" then Some(SavingError)
    else if name == "closed" then Some(Closed)
    else None
  }

  /** The fixed order in which present flags are listed. */
  const ListingOrder: seq<Flag> := [InConflict, EditingDisabled, ProgressAvailable, SavingError, Closed]

  /** The flags of `order` that are in `state`, in that order. */
  function PresentInOrder(order: seq<Flag>, state: set<Flag>): (r: seq<Flag>)
    requires forall i, j | 0 <= i < j < |order| :: Rank(order[i]) < Rank(order[j])
    ensures forall f :: f in r <==> f in state && f in order
    ensures forall i, j | 0 <= i < j < |r| :: Rank(r[i]) < Rank(r[j])
    decreases |order|
  {
    if |order| == 0 then []
    else
      var rest := PresentInOrder(order[1..], state);
      assert forall i | 0 <= i < |rest| :: rest[i] in order[1..];
      if order[0] in state then [order[0]] + rest else rest
  }

  /** Every readable string names its flag back. */
  lemma FlagNameRoundTrip(f: Flag)
    ensures FlagNamed(FlagName(f)) == Some(f)
  {
  }

  /** The readable strings of `printDocumentState(for:)` for a state that is
      not normal: one per present flag, in the fixed order inConflict,
      editingDisabled, progressAvailable, savingError, closed. */
  function ReadableStrings(state: set<Flag>): (r: seq<string>)
    ensures forall f :: FlagName(f) in r <==> f in state
  {
    EveryFlagListed();
    var flags := PresentInOrder(ListingOrder, state);
    var names := seq(|flags|, i requires 0 <= i < |flags| => FlagName(flags[i]));
    NamesOfFlags(flags, names);
    names
  }

  lemma NamesOfFlags(flags: seq<Flag>, names: seq<string>)
    requires |names| == |flags|
    requires forall i | 0 <= i < |flags| :: names[i] == FlagName(flags[i])
    ensures forall f :: FlagName(f) in names <==> f in flags
  {
  }

  /** The listing order names every flag. */
  lemma EveryFlagListed()
    ensures forall f: Flag :: f in ListingOrder
  {
    forall f: Flag ensures f in ListingOrder {
      match f
      case InConflict => assert ListingOrder[0] == f;
      case EditingDisabled => assert ListingOrder[1] == f;
      case ProgressAvailable => assert ListingOrder[2] == f;
      case SavingError => assert ListingOrder[3] == f;
      case Closed => assert ListingOrder[4] == f;
    }
  }

  /** The readable strings determine the state. */
  lemma ReadableStringsDetermineState(s1: set<Flag>, s2: set<Flag>)
    requires ReadableStrings(s1) == ReadableStrings(s2)
    ensures s1 == s2
  {
  }

  /** Swift's description of an array of strings: `["a", "b"]`. */
  function ArrayDescription(xs: seq<string>): (r: string)
    ensures |r| >= 2 && r[0] == '[' && r[|r| - 1] == ']'
    ensures xs == [] <==> r == "[]"
    ensures xs != [] ==> r[1] == '"'
    ensures |xs| == 1 ==> r == "[\"" + xs[0] + "\"]"
  {
    "[" + QuotedList(xs) + "]"
  }

  /** Every element occurs quoted in the description. */
  lemma DescriptionNamesAll(xs: seq<string>)
    ensures forall k | 0 <= k < |xs| :: Occurs(ArrayDescription(xs), Quoted(xs[k]))
  {
    QuotedListNamesAll(xs);
    OccursWithin("[", QuotedList(xs), "]");
  }

  /** A string in double quotes. */
  function Quoted(x: string): string {
    "\"" + x + "\""
  }

  /** `t` appears in `s` as a contiguous piece. */
  predicate Occurs(s: string, t: string) {
    exists i: nat | i + |t| <= |s| :: Piece(s, i, |t|) == t
  }

  /** The `n` characters of `s` from index `i`. */
  function Piece(s: string, i: nat, n: nat): string
    requires i + n <= |s|
  {
    s[i..i + n]
  }

  /** What occurs in `s` occurs in anything built around `s`. */
  lemma OccursWithin(p: string, s: string, q: string)
    ensures forall t | Occurs(s, t) :: Occurs(p + s + q, t)
  {
    forall t | Occurs(s, t) ensures Occurs(p + s + q, t) {
      var i: nat :| i + |t| <= |s| && Piece(s, i, |t|) == t;
      assert Piece(p + s + q, |p| + i, |t|) == t;
    }
  }

  /** Every element of the list occurs in it, quoted. */
  lemma QuotedListNamesAll(xs: seq<string>)
    ensures forall k | 0 <= k < |xs| :: Occurs(QuotedList(xs), Quoted(xs[k]))
  {
    forall k | 0 <= k < |xs| ensures Occurs(QuotedList(xs), Quoted(xs[k])) {
      QuotedListNames(xs, k);
    }
  }

  /** Element `k` occurs quoted in the list: the head is at the start, and a
      later element occurs in the tail. */
  lemma {:induction false} QuotedListNames(xs: seq<string>, k: nat)
    requires k < |xs|
    ensures Occurs(QuotedList(xs), Quoted(xs[k]))
    decreases |xs|
  {
    var t := Quoted(xs[k]);
    if |xs| == 1 {
      assert Piece(QuotedList(xs), 0, |t|) == t;
    } else if k == 0 {
      assert QuotedList(xs) == t + ", " + QuotedList(xs[1..]);
      assert Piece(QuotedList(xs), 0, |t|) == t;
    } else {
      QuotedListNames(xs[1..], k - 1);
      assert xs[1..][k - 1] == xs[k];
      OccursWithin("\"" + xs[0] + "\", ", QuotedList(xs[1..]), "");
      assert QuotedList(xs) == "\"" + xs[0] + "\", " + QuotedList(xs[1..]) + "";
    }
  }

  /** Appending an element adds `, "x"` at the end: the elements are listed
      in their order. */
  lemma {:induction false} QuotedListAppend(xs: seq<string>, x: string)
    requires |xs| > 0
    ensures QuotedList(xs + [x]) == QuotedList(xs) + ", " + Quoted(x)
    decreases |xs|
  {
    if |xs| > 1 {
      assert (xs + [x])[1..] == xs[1..] + [x];
      QuotedListAppend(xs[1..], x);
    }
  }

  /** The elements, each in double quotes, separated by ", ". */
  function QuotedList(xs: seq<string>): (r: string)
    ensures |xs| > 0 ==> |r| > 0 && r[0] == '"'
  {
    if |xs| == 0 then ""
    else if |xs| == 1 then "\"" + xs[0] + "\""
    else "\"" + xs[0] + "\", " + QuotedList(xs[1..])
  }

  const LinePrefix := "documentState: "

  /** The line `printDocumentState(for:)` logs. */
  function DocumentStateLine(state: set<Flag>): (r: string)
    ensures |r| >= |LinePrefix| + 2 && LinePrefix <= r && r[|r| - 1] == ']'
    ensures state != {} ==> r[|LinePrefix| + 1] == '"'
  {
    if state == {} then LinePrefix + "[normal]"
    else LinePrefix + ArrayDescription(ReadableStrings(state))
  }

  /** Each present flag's name occurs quoted in the logged line. */
  lemma LineNamesPresentFlags(state: set<Flag>)
    ensures forall f | f in state :: Occurs(DocumentStateLine(state), Quoted(FlagName(f)))
  {
    if state != {} {
      var xs := ReadableStrings(state);
      DescriptionNamesAll(xs);
      OccursWithin(LinePrefix, ArrayDescription(xs), "");
      assert DocumentStateLine(state) == LinePrefix + ArrayDescription(xs) + "";
    }
  }

  /** A state in conflict and closed is logged with both names, inConflict
      first. */
  lemma ConflictedClosedLine()
    ensures DocumentStateLine({InConflict, Closed})
         == LinePrefix + ("[" + Quoted("inConflict") + ", " + Quoted("closed") + "]")
  {
    var state := {InConflict, Closed};
    ConflictedClosedStrings();
    assert InConflict in state;
    LineOfTwo(state, "inConflict", "closed");
  }

  /** A state with two readable strings is logged as `["a", "b"]`. */
  lemma LineOfTwo(state: set<Flag>, a: string, b: string)
    requires state != {} && ReadableStrings(state) == [a, b]
    ensures DocumentStateLine(state) == LinePrefix + ("[" + Quoted(a) + ", " + Quoted(b) + "]")
  {
    TwoNamesDescribed([a, b]);
    assert DocumentStateLine(state) == LinePrefix + ArrayDescription([a, b]);
  }

  /** Two names are described as `["a", "b"]`. */
  lemma TwoNamesDescribed(xs: seq<string>)
    requires |xs| == 2
    ensures ArrayDescription(xs) == "[" + Quoted(xs[0]) + ", " + Quoted(xs[1]) + "]"
  {
    assert xs[1..] == [xs[1]];
    assert QuotedList(xs[1..]) == Quoted(xs[1]);
    assert QuotedList(xs) == Quoted(xs[0]) + ", " + Quoted(xs[1]);
  }

  /** The readable strings of a state in conflict and closed. */
  lemma ConflictedClosedStrings()
    ensures ReadableStrings({InConflict, Closed}) == ["inConflict", "closed"]
  {
    ConflictedClosedFlags();
  }

  /** The flags of a state in conflict and closed, in listing order. */
  lemma ConflictedClosedFlags()
    ensures PresentInOrder(ListingOrder, {InConflict, Closed}) == [InConflict, Closed]
  {
    ListingOrderRanked();
    assert ListingOrder[0] == InConflict && ListingOrder[4] == Closed;
    TwoFlagsPresent(ListingOrder, InConflict, Closed);
  }

  /** Of an order by rank that lists `a` and `b`, a state of these two
      flags keeps both, the lower rank first. */
  lemma TwoFlagsPresent(order: seq<Flag>, a: Flag, b: Flag)
    requires forall i, j | 0 <= i < j < |order| :: Rank(order[i]) < Rank(order[j])
    requires a in order && b in order
    requires Rank(a) < Rank(b)
    ensures PresentInOrder(order, {a, b}) == [a, b]
  {
    TwoFlagsInOrder(PresentInOrder(order, {a, b}), order, a, b);
  }

  /** The listing order is by rank. */
  lemma ListingOrderRanked()
    ensures forall i, j | 0 <= i < j < |ListingOrder| :: Rank(ListingOrder[i]) < Rank(ListingOrder[j])
  {
  }

  /** A rank-ordered list of exactly the flags `a` and `b` of `order` is
      `[a, b]`. */
  lemma TwoFlagsInOrder(r: seq<Flag>, order: seq<Flag>, a: Flag, b: Flag)
    requires Rank(a) < Rank(b) && a in order && b in order
    requires forall f :: f in r <==> f in {a, b} && f in order
    requires forall i, j | 0 <= i < j < |r| :: Rank(r[i]) < Rank(r[j])
    ensures r == [a, b]
  {
    assert a in r && b in r;
    var i :| 0 <= i < |r| && r[i] == a;
    var j :| 0 <= j < |r| && r[j] == b;
    assert i < j;
    forall k | 0 <= k < |r|
      ensures (r[k] == a && k == i) || (r[k] == b && k == j)
    {
      assert r[k] in r;
      assert k != i ==> Rank(r[k]) != Rank(r[i]);
      assert k != j ==> Rank(r[k]) != Rank(r[j]);
    }
    assert r[0] == r[0];
    assert r[j - 1] == r[j - 1];
    assert r[|r| - 1] == r[|r| - 1];
  }

  /** The normal state, and only it, is logged as `[normal]`. */
  lemma NormalLineOnlyForNormal(state: set<Flag>)
    ensures DocumentStateLine(state) == LinePrefix + "[normal]" <==> state == {}
  {
    if state != {} {
      var f :| f in state;
      assert FlagName(f) in ReadableStrings(state);
      QuotedIsNotNormal(ReadableStrings(state));
    }
  }

  /** A described non-empty list starts with `["`, so it is not `[normal]`. */
  lemma QuotedIsNotNormal(xs: seq<string>)
    requires |xs| > 0
    ensures LinePrefix + ArrayDescription(xs) != LinePrefix + "[normal]"
  {
    var d := ArrayDescription(xs);
    assert (LinePrefix + d)[|LinePrefix| + 1] == d[1] == '"';
    assert (LinePrefix + "[normal]")[|LinePrefix| + 1] == 'n';
  }


  /** The readable strings follow the listing order. */
  lemma ReadableStringsRanked(state: set<Flag>, i: nat, j: nat)
    requires i < j < |ReadableStrings(state)|
    ensures FlagNamed(ReadableStrings(state)[i]).Some?
    ensures FlagNamed(ReadableStrings(state)[j]).Some?
    ensures Rank(FlagNamed(ReadableStrings(state)[i]).value) < Rank(FlagNamed(ReadableStrings(state)[j]).value)
  {
  }
}

=== FILE: peer_changes.dfy ===
/** The `Changes` value of a document and the diff (`gatherPeerChanges`) that
    classifies the entries of a newly loaded package against the previously
    known one as new, deleted or updated. */
module PeerChanges {

  import opened Wrappers
  import opened Seqs
  import opened Urls

  /** A package listing: entry name to the entry's modification date, when its
      file attributes carry one. Stands in for `[String: FileWrapper]`. */
  type Snapshot = map<string, Option<int>>

  /** Three lists of entries. New entries are URLs because pending new images
      live outside the package (in a cache folder) until a save copies them. */
  datatype Changes = Changes(
    newImageUrls: seq<Url>,
    deletedImageNames: seq<string>,
    updatedImageNames: seq<string>)

  /** `Changes.isEmpty`: no list holds anything. */
  predicate IsEmpty(c: Changes)
    ensures IsEmpty(c) <==> c == Changes([], [], [])
  {
    |c.newImageUrls| == 0 && |c.deletedImageNames| == 0 && |c.updatedImageNames| == 0
  }

  /** `Changes.clear()`: the value afterwards is empty. */
  function Clear(c: Changes): (r: Changes)
    ensures IsEmpty(r)
    ensures r == Changes([], [], [])
  {
    c.(newImageUrls := [], deletedImageNames := [], updatedImageNames := [])
  }

  /** A value is empty exactly when clearing it leaves it as it is. */
  lemma EmptyIffClearIsIdentity(c: Changes)
    ensures IsEmpty(c) <==> Clear(c) == c
  {
  }

  /** The entry was modified after the known version: both dates exist and the
      new one is strictly later. A missing date never counts as an update. */
  predicate IsNewer(newDate: Option<int>, oldDate: Option<int>)
    ensures IsNewer(newDate, oldDate) ==> newDate.Some? && oldDate.Some? && newDate != oldDate
  {
    newDate.Some? && oldDate.Some? && newDate.value > oldDate.value
  }

  /** Being newer is a strict order: never both ways, and transitive. */
  lemma NewerIsStrictOrder(a: Option<int>, b: Option<int>, c: Option<int>)
    ensures IsNewer(a, b) ==> !IsNewer(b, a)
    ensures IsNewer(a, b) && IsNewer(b, c) ==> IsNewer(a, c)
  {
  }

  /** The names the new-entry URLs stand for. */
  function NewNames(c: Changes): set<string> {
    set u | u in c.newImageUrls :: LastPathComponent(u)
  }

  /** The entries present on both sides whose date moved forward. */
  function UpdatedNames(known: Snapshot, loaded: Snapshot): set<string> {
    set n | n in loaded && n in known && IsNewer(loaded[n], known[n])
  }

  /** The entries present on both sides that did not change. */
  function UnchangedNames(known: Snapshot, loaded: Snapshot): set<string> {
    set n | n in loaded && n in known && !IsNewer(loaded[n], known[n])
  }

  /** Reference definition of a correct classification of `loaded` against
      `known`: new = keys only in `loaded`, deleted = keys only in `known`, updated = common
      keys with a later date; no list repeats an entry, and every new-entry URL
      is the bare-name URL of its entry. */
  predicate Classifies(c: Changes, known: Snapshot, loaded: Snapshot) {
    && (forall u | u in c.newImageUrls :: u == NameUrl(LastPathComponent(u)))
    && NewNames(c) == loaded.Keys - known.Keys
    && Elements(c.deletedImageNames) == known.Keys - loaded.Keys
    && Elements(c.updatedImageNames) == UpdatedNames(known, loaded)
    && Distinct(c.newImageUrls)
    && Distinct(c.deletedImageNames)
    && Distinct(c.updatedImageNames)
  }

  /** The previously known listing; a document that has none compares as empty. */
  function KnownOrEmpty(original: Option<Snapshot>): Snapshot {
    original.GetOr(map[])
  }

  /** `names.map { URL(string: $0)! }`. */
  function NameUrls(names: seq<string>): (r: seq<Url>)
    ensures |r| == |names|
    ensures forall i | 0 <= i < |names| :: r[i] == NameUrl(names[i])
  {
    seq(|names|, i requires 0 <= i < |names| => NameUrl(names[i]))
  }

  /** What the loop of the general case has built after scanning `names`:
      the unknown names as new URLs, the known names whose date moved forward
      as updated, the old keys not scanned yet as deletion candidates, and no
      list repeats an entry. */
  predicate Scanned(c: Changes, original: Snapshot, wrappers: Snapshot, names: seq<string>)
    requires forall n | n in names :: n in wrappers
  {
    && (forall u | u in c.newImageUrls :: u == NameUrl(LastPathComponent(u)))
    && NewNames(c) == (set n | n in names && n !in original)
    && Elements(c.deletedImageNames) == original.Keys - Elements(names)
    && Elements(c.updatedImageNames)
       == (set n | n in names && n in original && IsNewer(wrappers[n], original[n]))
    && Distinct(c.newImageUrls) && Distinct(c.deletedImageNames) && Distinct(c.updatedImageNames)
  }

  /** The loop of the general case over the new entries `names` (in the
      dictionary's iteration order): a name unknown before is appended to the
      new URLs; a known one is appended to the updated names when its date
      moved forward, and is struck from the deletion candidates, which start as
      the old keys in `oldOrder`. */
  function ScanWrappers(original: Snapshot, wrappers: Snapshot, names: seq<string>,
                        oldOrder: seq<string>): (c: Changes)
    requires forall n | n in names :: n in wrappers
    requires Distinct(names)
    requires Enumerates(oldOrder, original.Keys)
    ensures Scanned(c, original, wrappers, names)
    decreases |names|
  {
    if |names| == 0 then Changes([], oldOrder, [])
    else
      var prefix := names[..|names| - 1];
      var name := names[|names| - 1];
      assert names == prefix + [name];
      var c := ScanWrappers(original, wrappers, prefix, oldOrder);
      if name !in original then
        var r := c.(newImageUrls := c.newImageUrls + [NameUrl(name)]);
        ScanUnknownStep(c, original, wrappers, prefix, name);
        r
      else
        var r := if IsNewer(wrappers[name], original[name])
                 then c.(updatedImageNames := c.updatedImageNames + [name],
                         deletedImageNames := RemoveFirst(c.deletedImageNames, name))
                 else c.(deletedImageNames := RemoveFirst(c.deletedImageNames, name));
        ScanKnownStep(c, original, wrappers, prefix, name);
        r
  }

  /** Scanning one more name that was unknown appends its URL to the new ones. */
  lemma ScanUnknownStep(c: Changes, original: Snapshot, wrappers: Snapshot, prefix: seq<string>,
                        name: string)
    requires forall n | n in prefix + [name] :: n in wrappers
    requires Scanned(c, original, wrappers, prefix)
    requires Distinct(prefix + [name])
    requires name !in original
    ensures Scanned(c.(newImageUrls := c.newImageUrls + [NameUrl(name)]), original, wrappers, prefix + [name])
  {
    var names := prefix + [name];
    var r := c.(newImageUrls := c.newImageUrls + [NameUrl(name)]);
    assert Elements(names) == Elements(prefix) + {name};
    assert NewNames(r) == NewNames(c) + {name};
    assert (set n | n in names && n !in original) == (set n | n in prefix && n !in original) + {name};
    assert (set n | n in names && n in original && IsNewer(wrappers[n], original[n]))
        == (set n | n in prefix && n in original && IsNewer(wrappers[n], original[n]));
    assert forall u | u in c.newImageUrls :: u != NameUrl(name) by {
      forall u | u in c.newImageUrls ensures u != NameUrl(name) {
        assert LastPathComponent(u) in NewNames(c);
        assert name !in prefix by {
          assert names[|names| - 1] == name;
          assert forall k | 0 <= k < |prefix| :: names[k] == prefix[k];
        }
      }
    }
  }

  /** Scanning one more name that was known strikes it from the deletion
      candidates, and records it as updated when its date moved forward. */
  lemma ScanKnownStep(c: Changes, original: Snapshot, wrappers: Snapshot, prefix: seq<string>,
                      name: string)
    requires forall n | n in prefix + [name] :: n in wrappers
    requires Scanned(c, original, wrappers, prefix)
    requires Distinct(prefix + [name])
    requires name in original
    ensures Scanned(
      if IsNewer(wrappers[name], original[name])
      then c.(updatedImageNames := c.updatedImageNames + [name],
              deletedImageNames := RemoveFirst(c.deletedImageNames, name))
      else c.(deletedImageNames := RemoveFirst(c.deletedImageNames, name)),
      original, wrappers, prefix + [name])
  {
    var names := prefix + [name];
    assert name !in prefix by {
      assert names[|names| - 1] == name;
      assert forall k | 0 <= k < |prefix| :: names[k] == prefix[k];
    }
    assert Elements(names) == Elements(prefix) + {name};
    assert (set n | n in names && n !in original) == (set n | n in prefix && n !in original);
    var updated := set n | n in names && n in original && IsNewer(wrappers[n], original[n]);
    var updatedBefore := set n | n in prefix && n in original && IsNewer(wrappers[n], original[n]);
    if IsNewer(wrappers[name], original[name]) {
      assert updated == updatedBefore + {name};
    } else {
      assert updated == updatedBefore;
    }
  }

  /** The first case of the diff: every entry of the listing, in its order, is new. */
  function AllNew(names: seq<string>): (c: Changes)
    requires Distinct(names)
    ensures forall u | u in c.newImageUrls :: u == NameUrl(LastPathComponent(u))
    ensures NewNames(c) == Elements(names)
    ensures Distinct(c.newImageUrls)
    ensures c.deletedImageNames == [] && c.updatedImageNames == []
  {
    var c := Changes(NameUrls(names), [], []);
    assert Distinct(c.newImageUrls) by {
      forall i, j | 0 <= i < j < |names| ensures c.newImageUrls[i] != c.newImageUrls[j] {
        assert LastPathComponent(c.newImageUrls[i]) == names[i];
        assert LastPathComponent(c.newImageUrls[j]) == names[j];
      }
    }
    assert NewNames(c) == Elements(names) by {
      forall n | n in Elements(names) ensures n in NewNames(c) {
        var i :| 0 <= i < |names| && names[i] == n;
        assert LastPathComponent(c.newImageUrls[i]) == n;
      }
    }
    c
  }

  /** `gatherPeerChanges(with:)`. Without a known listing (or with an empty
      one) every new entry is new; with an empty new listing every known entry
      is deleted; otherwise the general scan. In all three cases the result
      follows the set rules of `Classifies`, and the description file is an
      entry like any other. */
  function GatherPeerChanges(original: Option<Snapshot>, wrappers: Snapshot,
                             newOrder: seq<string>, oldOrder: seq<string>): (c: Changes)
    requires Enumerates(newOrder, wrappers.Keys)
    requires original.Some? ==> Enumerates(oldOrder, original.value.Keys)
    ensures Classifies(c, KnownOrEmpty(original), wrappers)
  {
    if original.None? || original.value == map[] then
      var c := AllNew(newOrder);
      assert UpdatedNames(KnownOrEmpty(original), wrappers) == {};
      c
    else if wrappers == map[] then
      var c := Changes([], oldOrder, []);
      assert NewNames(c) == {};
      assert UpdatedNames(original.value, wrappers) == {};
      c
    else
      var c := ScanWrappers(original.value, wrappers, newOrder, oldOrder);
      assert (set n | n in newOrder && n !in original.value) == wrappers.Keys - original.value.Keys;
      assert (set n | n in newOrder && n in original.value && IsNewer(wrappers[n], original.value[n]))
          == UpdatedNames(original.value, wrappers);
      c
  }

  /** Without a known listing, or with an empty one, every entry of the new
      listing is new, in the listing's order, and nothing is deleted or updated. */
  lemma AllNewWithoutKnownListing(original: Option<Snapshot>, wrappers: Snapshot,
                                  newOrder: seq<string>, oldOrder: seq<string>)
    requires Enumerates(newOrder, wrappers.Keys)
    requires original.Some? ==> Enumerates(oldOrder, original.value.Keys)
    requires original.None? || original.value == map[]
    ensures var c := GatherPeerChanges(original, wrappers, newOrder, oldOrder);
      && c.newImageUrls == NameUrls(newOrder)
      && NewNames(c) == wrappers.Keys
      && c.deletedImageNames == [] && c.updatedImageNames == []
  {
  }

  /** With a non-empty known listing and an empty new one, the deleted names
      are exactly the known keys, and nothing is new or updated. */
  lemma AllDeletedWhenEmptied(original: Snapshot, newOrder: seq<string>, oldOrder: seq<string>)
    requires Enumerates(oldOrder, original.Keys)
    requires original != map[]
    requires newOrder == []
    ensures var c := GatherPeerChanges(Some(original), map[], newOrder, oldOrder);
      && c.deletedImageNames == oldOrder
      && Elements(c.deletedImageNames) == original.Keys
      && c.newImageUrls == [] && c.updatedImageNames == []
  {
  }

  /** A correct classification partitions the names: the three lists are
      pairwise disjoint, and the new, updated and unchanged names together are
      exactly the keys of the new listing. */
  lemma ClassificationIsPartition(c: Changes, known: Snapshot, loaded: Snapshot)
    requires Classifies(c, known, loaded)
    ensures NewNames(c) !! Elements(c.deletedImageNames)
    ensures NewNames(c) !! Elements(c.updatedImageNames)
    ensures Elements(c.deletedImageNames) !! Elements(c.updatedImageNames)
    ensures NewNames(c) !! UnchangedNames(known, loaded)
    ensures Elements(c.updatedImageNames) !! UnchangedNames(known, loaded)
    ensures NewNames(c) + Elements(c.updatedImageNames) + UnchangedNames(known, loaded) == loaded.Keys
  {
  }

  /** Comparing a listing with itself finds no change at all. */
  lemma DiffOfSelfIsEmpty(m: Snapshot, order: seq<string>)
    requires Enumerates(order, m.Keys)
    ensures IsEmpty(GatherPeerChanges(Some(m), m, order, order))
  {
    var c := GatherPeerChanges(Some(m), m, order, order);
    assert UpdatedNames(m, m) == {};
    EmptyElements(c.deletedImageNames);
    EmptyElements(c.updatedImageNames);
    NoNewNames(c);
  }

  /** A sequence without elements is empty. */
  lemma EmptyElements<T>(s: seq<T>)
    ensures Elements(s) == {} ==> s == []
  {
    if |s| > 0 {
      assert s[0] in Elements(s);
    }
  }

  /** A value naming no new entry has no new-entry URL. */
  lemma NoNewNames(c: Changes)
    ensures NewNames(c) == {} ==> c.newImageUrls == []
  {
    if |c.newImageUrls| > 0 {
      assert LastPathComponent(c.newImageUrls[0]) in NewNames(c);
    }
  }

  /** The classification does not depend on the dictionaries' iteration
      orders: any two enumerations give the same sets. */
  lemma DiffIndependentOfOrder(original: Option<Snapshot>, wrappers: Snapshot,
                               newOrder1: seq<string>, oldOrder1: seq<string>,
                               newOrder2: seq<string>, oldOrder2: seq<string>)
    requires Enumerates(newOrder1, wrappers.Keys) && Enumerates(newOrder2, wrappers.Keys)
    requires original.Some? ==> Enumerates(oldOrder1, original.value.Keys)
    requires original.Some? ==> Enumerates(oldOrder2, original.value.Keys)
    ensures var c1 := GatherPeerChanges(original, wrappers, newOrder1, oldOrder1);
      var c2 := GatherPeerChanges(original, wrappers, newOrder2, oldOrder2);
      && (set u | u in c1.newImageUrls) == (set u | u in c2.newImageUrls)
      && Elements(c1.deletedImageNames) == Elements(c2.deletedImageNames)
      && Elements(c1.updatedImageNames) == Elements(c2.updatedImageNames)
  {
    var c1 := GatherPeerChanges(original, wrappers, newOrder1, oldOrder1);
    var c2 := GatherPeerChanges(original, wrappers, newOrder2, oldOrder2);
    forall u | u in c1.newImageUrls ensures u in c2.newImageUrls {
      var n := LastPathComponent(u);
      assert n in NewNames(c2);
      var u2 :| u2 in c2.newImageUrls && LastPathComponent(u2) == n;
    }
    forall u | u in c2.newImageUrls ensures u in c1.newImageUrls {
      var n := LastPathComponent(u);
      assert n in NewNames(c1);
      var u1 :| u1 in c1.newImageUrls && LastPathComponent(u1) == n;
    }
  }

  /** Known listing {a: 1, b: 1}, new listing {a: 1, c: 2}: b is deleted, c is
      new, and a is unchanged because its date did not move. */
  lemma WorkedExample()
    ensures var known := map["a" := Some(1), "b" := Some(1)];
      var loaded := map["a" := Some(1), "c" := Some(2)];
      var c := GatherPeerChanges(Some(known), loaded, ["a", "c"], ["a", "b"]);
      && c.newImageUrls == [NameUrl("c")]
      && c.deletedImageNames == ["b"]
      && c.updatedImageNames == []
  {
    var known := map["a" := Some(1), "b" := Some(1)];
    var loaded := map["a" := Some(1), "c" := Some(2)];
    assert "a" in known && "a" in loaded;
    ExampleScan();
  }

  /** The general loop of the worked example, one name at a time. */
  lemma ExampleScan()
    ensures ScanWrappers(map["a" := Some(1), "b" := Some(1)], map["a" := Some(1), "c" := Some(2)],
                         ["a", "c"], ["a", "b"])
         == Changes([NameUrl("c")], ["b"], [])
  {
    var known := map["a" := Some(1), "b" := Some(1)];
    var loaded := map["a" := Some(1), "c" := Some(2)];
    assert "a" != "c" && "a" != "b";
    assert ["a", "c"][..1] == ["a"] && ["a"][..0] == [];
    assert ScanWrappers(known, loaded, [], ["a", "b"]) == Changes([], ["a", "b"], []);
    assert RemoveFirst(["a", "b"], "a") == ["b"] by {
      assert FirstIndex(["a", "b"], "a") == Some(0);
    }
    assert ScanWrappers(known, loaded, ["a"], ["a", "b"]) == Changes([], ["b"], []);
  }

}

=== FILE: seqs.dfy ===
/** Sequence helpers: the Swift `Array` operations the model relies on. */
module Seqs {

  import opened Wrappers

  /** No element occurs twice. */
  predicate Distinct<T(==)>(s: seq<T>) {
    forall i, j | 0 <= i < j < |s| :: s[i] != s[j]
  }

  function Elements<T(==)>(s: seq<T>): set<T> {
    set x | x in s
  }

  /** `order` lists every element of `keys` exactly once: one possible iteration
      order of a Swift dictionary whose key set is `keys`. */
  predicate Enumerates<T(==)>(order: seq<T>, keys: set<T>) {
    Distinct(order) && Elements(order) == keys
  }

  /** `Array.remove(at:)`: drops exactly position `i`. */
  function RemoveAt<T>(s: seq<T>, i: nat): (r: seq<T>)
    requires i < |s|
    ensures |r| == |s| - 1
    ensures forall j | 0 <= j < i :: r[j] == s[j]
    ensures forall j | i <= j < |r| :: r[j] == s[j + 1]
  {
    s[..i] + s[i + 1..]
  }

  /** Inserting back what `RemoveAt` dropped restores the sequence. */
  lemma RemoveAtInverse<T>(s: seq<T>, i: nat)
    requires i < |s|
    ensures RemoveAt(s, i)[..i] + [s[i]] + RemoveAt(s, i)[i..] == s
  {
  }

  /** Position of the first occurrence of `x`, if any (`firstIndex(of:)`). */
  function FirstIndex<T(==)>(s: seq<T>, x: T): (r: Option<nat>)
    ensures r.Some? ==> r.value < |s| && s[r.value] == x
    ensures r.Some? ==> forall j | 0 <= j < r.value :: s[j] != x
    ensures r.None? <==> x !in s
  {
    if |s| == 0 then None
    else if s[0] == x then Some(0)
    else
      var k := FirstIndex(s[1..], x);
      if k.None? then None else Some(k.value + 1)
  }

  /** `firstIndex(where: { $0 == x })` followed by `remove(at:)`. */
  function RemoveFirst<T(==)>(s: seq<T>, x: T): (r: seq<T>)
    ensures x !in s ==> r == s
    ensures x in s ==> |r| == |s| - 1
    ensures Elements(r) <= Elements(s)
    ensures Distinct(s) ==> Distinct(r) && Elements(r) == Elements(s) - {x}
  {
    match FirstIndex(s, x)
    case None => s
    case Some(i) =>
      var r := RemoveAt(s, i);
      assert forall j | 0 <= j < |r| :: r[j] in s by {
        forall j | 0 <= j < |r| ensures r[j] in s {
          if j < i { assert r[j] == s[j]; } else { assert r[j] == s[j + 1]; }
        }
      }
      assert Distinct(s) ==> forall j | 0 <= j < |r| :: r[j] != x by {
        if Distinct(s) {
          forall j | 0 <= j < |r| ensures r[j] != x {
            if j < i { assert r[j] == s[j]; } else { assert r[j] == s[j + 1]; }
          }
        }
      }
      r
  }

  /** The elements of `s` that do not occur in `drop`, in their original order
      (a diffable snapshot's `deleteItems`). */
  function RemoveAll<T(==)>(s: seq<T>, drop: seq<T>): (r: seq<T>)
    ensures forall x | x in r :: x in s && x !in drop
    ensures forall x | x in s && x !in drop :: x in r
    ensures |r| <= |s|
    decreases |s|
  {
    if |s| == 0 then []
    else
      var rest := RemoveAll(s[..|s| - 1], drop);
      assert s == s[..|s| - 1] + [s[|s| - 1]];
      if s[|s| - 1] in drop then rest else rest + [s[|s| - 1]]
  }

  /** `RemoveAll` works element by element: on a concatenation it is the
      concatenation of the two results, so the survivors keep their order. */
  lemma {:induction false} RemoveAllAppend<T>(a: seq<T>, b: seq<T>, drop: seq<T>)
    ensures RemoveAll(a + b, drop) == RemoveAll(a, drop) + RemoveAll(b, drop)
    decreases |b|
  {
    if |b| == 0 {
      assert a + b == a;
    } else {
      var k := |b| - 1;
      assert (a + b)[..|a + b| - 1] == a + b[..k];
      assert (a + b)[|a + b| - 1] == b[k];
      RemoveAllAppend(a, b[..k], drop);
    }
  }

  /** One element survives exactly when it is not dropped. */
  lemma RemoveAllSingle<T>(x: T, drop: seq<T>)
    ensures RemoveAll([x], drop) == if x in drop then [] else [x]
  {
  }

  /** Dropping nothing keeps the sequence as it is. */
  lemma {:induction false} RemoveAllNothing<T>(s: seq<T>)
    ensures RemoveAll(s, []) == s
    decreases |s|
  {
    if |s| > 0 {
      RemoveAllNothing(s[..|s| - 1]);
      assert s == s[..|s| - 1] + [s[|s| - 1]];
    }
  }

  /** A repetition-free sequence of one value has at most one element. */
  lemma DistinctConstantIsShort<T>(s: seq<T>, x: T)
    requires Distinct(s)
    ensures (forall i | 0 <= i < |s| :: s[i] == x) ==> |s| <= 1
  {
    if |s| >= 2 {
      assert s[0] != s[1];
    }
  }
}

=== FILE: urls.dfy ===
/** File URLs as Foundation's `URL` is used by the app: a sequence of path
    components, with the operations `appendingPathComponent`,
    `appendingPathExtension`, `deletingLastPathComponent`, `lastPathComponent`
    and `path`. A component is atomic here (it never contains a slash). */
module Urls {

  datatype Url = Url(components: seq<string>)

  /** `URL.path`: every component preceded by a slash. */
  function Path(u: Url): string
    decreases |u.components|
  {
    var cs := u.components;
    if |cs| == 0 then "" else Path(Url(cs[..|cs| - 1])) + "/" + cs[|cs| - 1]
  }

  /** `URL.lastPathComponent` (the empty string for a URL without components). */
  function LastPathComponent(u: Url): string {
    if |u.components| == 0 then "" else u.components[|u.components| - 1]
  }

  /** `URL.deletingLastPathComponent()`. */
  function DeletingLastPathComponent(u: Url): Url {
    if |u.components| == 0 then u else Url(u.components[..|u.components| - 1])
  }

  /** `URL.appendingPathComponent(_:)`: the result is `c` inside `u`, and its
      path extends the path of `u` by a slash and `c`. */
  function AppendingPathComponent(u: Url, c: string): (r: Url)
    ensures LastPathComponent(r) == c
    ensures DeletingLastPathComponent(r) == u
    ensures Path(r) == Path(u) + "/" + c
  {
    var r := Url(u.components + [c]);
    assert r.components[..|r.components| - 1] == u.components;
    r
  }

  /** `URL.appendingPathExtension(_:)`: the last component gains `.ext`; the
      parent directory is unchanged. */
  function AppendingPathExtension(u: Url, ext: string): (r: Url)
    ensures |u.components| > 0 ==> LastPathComponent(r) == LastPathComponent(u) + "." + ext
    ensures DeletingLastPathComponent(r) == DeletingLastPathComponent(u)
    ensures |u.components| > 0 ==> Path(r) == Path(u) + "." + ext
  {
    var cs := u.components;
    if |cs| == 0 then u
    else
      var r := Url(cs[..|cs| - 1] + [cs[|cs| - 1] + "." + ext]);
      assert r.components[..|r.components| - 1] == cs[..|cs| - 1];
      r
  }

  /** `URL(string: name)` for a bare entry name: a relative URL whose only
      component is `name`. This holds for names without URL syntax; a name
      holding ':', '#', '?' or '%' would be parsed, which is not modelled. */
  function NameUrl(name: string): (r: Url)
    ensures LastPathComponent(r) == name
  {
    Url([name])
  }

  /** Distinct names give distinct URLs, so a URL made from a name stands for it. */
  lemma NameUrlInjective(a: string, b: string)
    ensures NameUrl(a) == NameUrl(b) <==> a == b
  {
  }
}

=== FILE: wrappers.dfy ===
/** `Option` and `Result`, used across the model: `Option` for Swift optionals
    and `Result` for operations whose failure the source treats as fatal. */
module Wrappers {

  datatype Option<+T> = None | Some(value: T) {

    /** The wrapped value, or `default` when there is none (Swift's `??`). */
    function GetOr(default: T): T {
      match this
      case Some(v) => v
      case None => default
    }
  }

  datatype Result<+R, +E> = Success(value: R) | Failure(error: E)
}
